=== FILE: README.md ===
# Teaching utilities: Gradescope converters and end-of-term GitHub clean-up

This project models, in Dafny, the logic of three course-administration scripts and proves properties of that model.

- **Column selection** (`parse_metadata`, the same code in both plagiarism scripts). From a Gradescope submission export, keep these five identity columns:
  - First Name
  - Last Name
  - Student ID
  - Email
  - Submission ID

  Then keep the header at every index 12, 17, 22, … below the column count.
- **The MOSS converter** (`generate_moss_file`, `generate_moss`). It writes one text file per selected row. The file is named `<student id>-<first>-<last>.txt`, and its body is an identity block followed by one section per written column. The output directory is a map from file name to content, so a later row with the same file name replaces the earlier file (last writer wins).
- **The ChatGPT scorer** (`generate_chatgpt` and the `PROBABILITY` pattern `Probability:\s*(([0-9]*\.?[0-9]+))`):
  - For every row, it sends the cells at selected positions 8..11 to a chat model. The model is a function parameter, `oracle: string -> string`.
  - It extracts a probability from each reply, using a left-to-right scanner that matches `re.search` on this pattern.
  - It appends one score column and one narrative column per scored cell.
- **End-of-term GitHub clean-up** (`github/end-term.py`):
  - `load_from_file`: strip each line, drop the empty ones. The file system is a map from path to contents.
  - The per-item decisions of cloning, repository deletion, team deletion and member removal, over records that stand in for the GitHub objects.
  - The stage selection of `main`: which stages run, and in which order. A run is modelled as the ordered list of its effects (cloned, repository deleted, team deleted, member removed).

The modules follow the scripts:
- `Results`: Option and Result.
- `Text`: the Python string operations used, namely `str.isspace`, `strip`, line splitting at `\n` and `\r`, and `replace`.
- `Gradescope`: column selection.
- `Moss`.
- `Probability`: the regular expression.
- `ChatGpt`.
- `EndTerm`.

In these places the scripts behave unexpectedly; the model follows the code:
- **The MOSS body starts at selected position 6** (`row.iloc[6:]`). Positions 0..4 are the identity columns and position 5 is the first item response. So the Submission ID and the first response never reach the file, and an export with a single item produces the identity block alone (`Moss.AdaLovelaceExample`).
- **A selected table without rows still writes a file.** `DataFrame.apply` with `axis=1` on an empty frame calls the function once on a row of NaN, so `nan-nan-nan.txt` is written, holding `nan` for each identity field and for every column from position 6 on (`Moss.EmptyTableWritesNan`).
- **Item headers are written as they are.** " Response" is not removed in the MOSS body. In the ChatGPT output it is replaced, not removed: "Q Response" becomes "Q ChatGPT Score".
- **The ChatGPT scorer scores selected positions 8..11** (`row.iloc[6:].iloc[2:6]`), not every item. A selected table with two items has 7 columns, so nothing is scored and the output keeps the input's 7 columns (`ChatGpt.TwoItemScenario`).
- **An empty table is not an empty result.** The column names are bound only inside the row loop, so the scorer fails (`Failure.NoRows`).
- **A reply without a probability ends the whole run** (`.group` on `None`). No partial table is produced (`Failure.NoProbability`).
- **Team owners are compared by login.** The source intersects the team's member objects with the owner objects. The model takes both sides as sets of logins.

## Model

| member | source | states |
|---|---|---|
| Text.TrimStartSpec | github/end-term.py:31 | `lstrip` removes exactly a leading run of whitespace: the result is a suffix of the input, what was cut is all whitespace, and the result does not start with whitespace |
| Text.TrimEndSpec | github/end-term.py:31 | `rstrip` removes exactly a trailing run of whitespace: the result is a prefix, what was cut is all whitespace, the result does not end with whitespace |
| Text.StripSpec | github/end-term.py:31 | `strip()` yields a contiguous slice of the line with no whitespace at either end; the result is empty exactly when the line is all whitespace |
| Text.StripKeepsStripped | github/end-term.py:31 | stripping a line that has no surrounding whitespace returns it unchanged |
| Text.SplitLinesNoBreak | github/end-term.py:30-31 | the modelled lines (the text split at every `\n` and `\r`) hold no line break |
| Text.SplitOneLine | github/end-term.py:30-31 | text without a line break reads as exactly one line |
| Text.SplitFirstLine | github/end-term.py:30-31 | a line followed by a line break (`\n` or `\r`) is read as the first line, and the rest is read on its own |
| Text.SplitJoinLines | github/end-term.py:30-31 | lines written with `\n` between them read back as the same lines (round trip) |
| Text.JoinSplitLines | github/end-term.py:30-31 | a text with no `\r`, read as lines and written back with `\n`, is the same text (reverse round trip) |
| Text.ReplaceAbsent | plagiarism/gradescope-to-chatgpt.py:81-82 | `replace` leaves a text without the pattern unchanged |
| Text.ReplaceSuffix | plagiarism/gradescope-to-chatgpt.py:81-82 | a label that lacks the pattern, then a separator that is not in the pattern, then the pattern: only the trailing pattern is replaced and the label and separator are kept |
| Text.ReplaceWhole | plagiarism/gradescope-to-chatgpt.py:81-82 | replacing a pattern in the pattern itself yields the replacement |
| Gradescope.Slots | plagiarism/gradescope-to-moss.py:25 | every index of `range(from, n, 5)` lies in `[from, n)` |
| Gradescope.SlotsShape | plagiarism/gradescope-to-moss.py:25 | `range(from, n, 5)` has `ceil((n - from) / 5)` elements, the k-th being `from + 5k` |
| Gradescope.ItemIndicesSpec | plagiarism/gradescope-to-moss.py:25 | the item indices are exactly the `i` with `12 <= i < n` and `(i - 12) mod 5 = 0`, strictly increasing, `(n - 8) / 5` of them (none when `n <= 12`) |
| Gradescope.ItemIndexIsResponseSlot | plagiarism/gradescope-to-moss.py:18-25 | each selected index is offset 3 (the Response slot) of a five-column group starting at column 9 |
| Gradescope.ItemCountOfLayout | plagiarism/gradescope-to-moss.py:11 | a 9 + 5k column export yields k items; the 64-column header yields 11 |
| Gradescope.NoItemsInShortExport | plagiarism/gradescope-to-moss.py:25 | an export with at most 12 columns selects no item |
| Gradescope.SelectedColumns | plagiarism/gradescope-to-moss.py:16-26 | the selected labels are the five identity labels, then `header[12 + 5k]` for each item, in order |
| Gradescope.IndexOf | plagiarism/gradescope-to-moss.py:27 | the label lookup returns the first position holding the label, and nothing exactly when the label is absent |
| Gradescope.MissingLabels | plagiarism/gradescope-to-moss.py:27 | the reported missing labels are exactly the wanted labels absent from the header |
| Gradescope.Project | plagiarism/gradescope-to-moss.py:27 | selecting columns by label gives one cell per label, taken from a column with that label |
| Gradescope.SelectedPresent | plagiarism/gradescope-to-moss.py:25-27 | every selected label is in the header exactly when every identity label is (item labels come from the header) |
| Gradescope.ProjectedCells | plagiarism/gradescope-to-moss.py:27 | with distinct labels, the cell selected for a label is the row's cell under that label |
| Gradescope.ParseMetadata | plagiarism/gradescope-to-moss.py:13-27 | the selection fails exactly when an identity label is missing and then names exactly the missing ones; otherwise the header is the selected labels, one row per input row, and every cell is the input cell under the same label |
| Gradescope.SelectedItemCells | plagiarism/gradescope-to-chatgpt.py:51-53 | after selection, column `k >= 5` of every row holds the export's cell at index `12 + 5(k - 5)` |
| Gradescope.SelectedIdentityCells | plagiarism/gradescope-to-chatgpt.py:42-53 | after selection, columns 0..4 of every row hold the identity cells in the fixed order |
| Moss.SectionsRenderSuffix | plagiarism/gradescope-to-moss.py:40-42 | the loop over the columns from a position renders the (heading, value) pairs of that suffix in order |
| Moss.BodyLayout | plagiarism/gradescope-to-moss.py:38-42 | the body is the identity block (first, last, id, email, blank lines) followed by exactly the written pairs, each as heading, blank line, value, blank lines |
| Moss.FirstResponseNotWritten | plagiarism/gradescope-to-moss.py:40 | neither the Submission ID nor the first response column heads a written section; a selected row with at most one item yields the identity block alone |
| Moss.BodyAppend | plagiarism/gradescope-to-moss.py:40-42 | one more column past position 5 appends exactly its section to the body |
| Moss.RenderAppend | plagiarism/gradescope-to-moss.py:41-42 | rendering one more pair appends exactly its section |
| Moss.AdaLovelaceExample | plagiarism/gradescope-to-moss.py:37-42 | the record Ada Lovelace, id 42, is written to `42-Ada-Lovelace.txt`; with one item the body is the identity block only, with two items the second item's section follows it |
| Moss.SplitAtDash | plagiarism/gradescope-to-moss.py:37 | `a-x == b-y` with dash-free `a`, `b` forces `a == b` and `x == y` |
| Moss.FileNameDeterminesIdentity | plagiarism/gradescope-to-moss.py:37 | when the id and first name contain no dash, equal file names mean equal (first, last, id) |
| Moss.FileNameCollision | plagiarism/gradescope-to-moss.py:37 | without sanitising, two students with different ids and names can share a file name |
| Moss.LastWriter | plagiarism/gradescope-to-moss.py:45-47 | the last row whose file has a given name: later rows name other files, and nothing when no row names it |
| Moss.WriteRowsSnoc | plagiarism/gradescope-to-moss.py:38-42 | writing one more row's file overwrites that file with the row's body and changes nothing else |
| Moss.WriteRowsSpec | plagiarism/gradescope-to-moss.py:38-42 | after writing the rows in order, a file named by some row holds the body of the last such row; any other file keeps its earlier presence and content |
| Moss.WriteRowsKeys | plagiarism/gradescope-to-moss.py:38-42 | after writing the rows, the files are the earlier files plus one name per row |
| Moss.WriteRowsIdempotent | plagiarism/gradescope-to-moss.py:38-42 | writing the same rows a second time leaves every file as the first pass left it |
| Moss.WriteAllSpec | plagiarism/gradescope-to-moss.py:38-47 | last writer wins over the rows `apply` visits (the table's rows, or the single NaN row when there are none): a file named by one of them holds the body of the last such row; any other file keeps its earlier presence and content |
| Moss.WriteAllKeys | plagiarism/gradescope-to-moss.py:45-47 | the files afterwards are the earlier files plus one name per row `apply` visits, so an empty table adds `nan-nan-nan.txt` |
| Moss.WriteAllIdempotent | plagiarism/gradescope-to-moss.py:29-47 | running the conversion a second time over the same table leaves every file as the first run left it |
| Moss.EmptyTableWritesNan | plagiarism/gradescope-to-moss.py:45-47 | a table without rows adds exactly the file `nan-nan-nan.txt`, whose body is four `nan` identity lines and the sections of positions 6 on, each with value `nan` |
| Moss.WriteAllTable | plagiarism/gradescope-to-moss.py:38-47 | a table without rows writes the NaN file alone; otherwise the files are the earlier ones plus one per row, the last row with a given name owns that file's body, and a file of the directory that no row names keeps its content |
| Moss.GenerateMoss | plagiarism/gradescope-to-moss.py:45-62 | the conversion fails exactly when an identity column is missing; otherwise a table without rows adds only `nan-nan-nan.txt`, and a table with rows adds exactly one file per row name, the file of the last row with a name holding that row's body, and every file of the directory that no row names keeping its content |
| Probability.SkipSpace | plagiarism/gradescope-to-chatgpt.py:15 | greedy `\s*`: the skipped run is all whitespace and is followed by a non-space or the end |
| Probability.DigitRun | plagiarism/gradescope-to-chatgpt.py:15 | greedy `[0-9]*`: the run is all digits and is followed by a non-digit or the end |
| Probability.NumberAtSpec | plagiarism/gradescope-to-chatgpt.py:15 | the capture at a position is the longest prefix there matching `[0-9]*\.?[0-9]+`, and there is none exactly when no prefix matches |
| Probability.FractionLongest | plagiarism/gradescope-to-chatgpt.py:15 | digits, a dot and a non-empty digit run form the longest number at that position |
| Probability.IntegerLongest | plagiarism/gradescope-to-chatgpt.py:15 | a non-empty digit run not followed by a dot and a digit is the longest number there (`0.` gives `0`) |
| Probability.NoNumber | plagiarism/gradescope-to-chatgpt.py:15 | no digit and no dot-then-digit at a position means no number starts there |
| Probability.NumberAfterSpace | plagiarism/gradescope-to-chatgpt.py:15 | after the marker, a number can start only where the whitespace run ends, so backtracking into `\s*` finds nothing else |
| Probability.MatchAtSpec | plagiarism/gradescope-to-chatgpt.py:15 | the scanner matches at a position exactly when the pattern can (marker, whitespace, number), and it captures the longest number there |
| Probability.SearchFromSpec | plagiarism/gradescope-to-chatgpt.py:85 | scanning from a position returns the capture of the first start position that matches, or nothing when none does |
| Probability.SearchFromFound | plagiarism/gradescope-to-chatgpt.py:85 | a found capture comes from a matching start position at or after the scan's start, with no match before it |
| Probability.SearchFromNone | plagiarism/gradescope-to-chatgpt.py:85 | a failed scan means no start position from there matches |
| Probability.SearchSpec | plagiarism/gradescope-to-chatgpt.py:85 | `re.search` finds a capture exactly when the pattern matches somewhere; the capture is the leftmost match's and is a number |
| Probability.SearchIsNumber | plagiarism/gradescope-to-chatgpt.py:85 | every captured probability is in the language `[0-9]*\.?[0-9]+` |
| Probability.NoMarkerNoMatch | plagiarism/gradescope-to-chatgpt.py:85 | a reply without `Probability:` has no match |
| Probability.ExampleFraction | plagiarism/gradescope-to-chatgpt.py:85 | `Probability: 0.73` yields `0.73` |
| Probability.ExampleLeadingDot | plagiarism/gradescope-to-chatgpt.py:85 | a line break may follow the marker, and `.5` is captured whole |
| Probability.ExampleTrailingDot | plagiarism/gradescope-to-chatgpt.py:85 | `Probability: 0.` yields `0` |
| Probability.ExampleNoNumber | plagiarism/gradescope-to-chatgpt.py:85 | `Probability: none` has no match |
| ChatGpt.Slice | plagiarism/gradescope-to-chatgpt.py:79-80 | Python slicing with clamped bounds: the length is the clamped difference and each element is the input at the shifted index |
| ChatGpt.Subject | plagiarism/gradescope-to-chatgpt.py:79-80 | `iloc[6:].iloc[2:6]` is positions 8 up to 12 (clamped), at most four cells, and empty for at most 8 columns |
| ChatGpt.OutputHeaderResponse | plagiarism/gradescope-to-chatgpt.py:81-90 | in the output header, the scored column `Q Response` (for a label `Q` without `Response`) has its score column `Q ChatGPT Score` after the input columns and its narrative column `Q ChatGPT Response` after the score columns, at the same offset |
| ChatGpt.ResponseHeaderNames | plagiarism/gradescope-to-chatgpt.py:81-82 | `Q Response` becomes `Q ChatGPT Score` and `Q ChatGPT Response` whenever the question label `Q` does not itself contain `Response` |
| ChatGpt.Replies | plagiarism/gradescope-to-chatgpt.py:83-84 | one reply per cell |
| ChatGpt.RepliesAt | plagiarism/gradescope-to-chatgpt.py:83-84 | the k-th reply is the model's answer to the k-th cell |
| ChatGpt.ScoresSpec | plagiarism/gradescope-to-chatgpt.py:85 | a row has scores exactly when every reply has a match; then there is one score per reply, in order, each the reply's capture and a number |
| ChatGpt.ScoresFail | plagiarism/gradescope-to-chatgpt.py:85 | one reply without a match leaves the row without scores |
| ChatGpt.AskEach | plagiarism/gradescope-to-chatgpt.py:83-84 | one model call per cell, in order, and the replies are the model's answers |
| ChatGpt.ScoreEach | plagiarism/gradescope-to-chatgpt.py:85 | succeeds exactly when every reply has a match and returns those captures; otherwise reports the position of the first reply without one |
| ChatGpt.ResultRow | plagiarism/gradescope-to-chatgpt.py:86-90 | an output row has one cell per input cell and two per scored cell, as many as the output header has columns |
| ChatGpt.ScoreRow | plagiarism/gradescope-to-chatgpt.py:79-87 | asks about exactly the scored cells; succeeds exactly when every reply has a probability, and then yields the output row; otherwise reports the first reply without one |
| ChatGpt.ResultRowCells | plagiarism/gradescope-to-chatgpt.py:83-90 | an output row starts with the input row; for the k-th scored cell it then holds the probability `re.search` finds in the model's reply to that cell, and, after all scores, the reply itself |
| ChatGpt.ResultRowsRectangular | plagiarism/gradescope-to-chatgpt.py:88-90 | equally long input rows give output rows as long as the output header |
| ChatGpt.ScoreRows | plagiarism/gradescope-to-chatgpt.py:75-87 | the loop over the rows succeeds exactly when every row is scored, making the calls row by row; otherwise it stops at the first failing row and names its first failing reply, having called the model for the rows up to and including it |
| ChatGpt.GenerateChatGpt | plagiarism/gradescope-to-chatgpt.py:73-90 | a table is produced exactly when there are rows and every reply has a probability: same row count, header as `OutputHeader`, each row its `ResultRow`; no rows fails; a reply without a match fails naming the first failing row, its first reply without a match, and that reply; an empty table fails without calling the model |
| ChatGpt.TwoItemScenario | plagiarism/gradescope-to-chatgpt.py:79-90 | a seven-column selected table scores nothing and keeps its seven columns |
| EndTerm.CleanLines | github/end-term.py:31 | cleaning never lengthens the list |
| EndTerm.CleanLinesAppend | github/end-term.py:31 | cleaning keeps line order: it distributes over concatenation |
| EndTerm.CleanLinesMembers | github/end-term.py:31 | the cleaned lines are exactly the non-empty stripped lines |
| EndTerm.CleanLinesEntries | github/end-term.py:31 | every cleaned line is non-empty, has no surrounding whitespace and no line break |
| EndTerm.CleanEntries | github/end-term.py:31 | cleaning a list of entries leaves it unchanged |
| EndTerm.LoadFromFile | github/end-term.py:25-31 | no name, an empty name or a missing file gives `[]`; every loaded element is an entry (non-empty, stripped) |
| EndTerm.LoadFromFileMembers | github/end-term.py:30-31 | the entries loaded from a file are exactly its non-empty stripped lines |
| EndTerm.LoadWritten | github/end-term.py:25-31 | a list of entries written one per line loads back as the same list |
| EndTerm.LoadIdempotent | github/end-term.py:25-31 | loading, writing the list back and loading again gives the same list |
| EndTerm.LoadExample | github/end-term.py:30-31 | surrounding spaces, blank lines and `\r\n` line ends are dropped: the file holds two entries and loads as those two |
| EndTerm.RepoDeletedIff | github/end-term.py:78-102 | a repository is deleted exactly when the list is empty or names it, the token is admin, the owner check is off or finds no owner among the collaborators, and the delete call succeeds |
| EndTerm.TeamDeletedIff | github/end-term.py:144-163 | a team is deleted exactly when the list is empty or names it, the owner check is off or finds no owner among its members, and the delete call succeeds |
| EndTerm.Chosen | github/end-term.py:75-102 | a loop's effects are at most one per item |
| EndTerm.ChosenSpec | github/end-term.py:75-102 | a name appears among a loop's effects exactly when an item with that name is acted on |
| EndTerm.ChosenAppend | github/end-term.py:75-102 | the items are processed in enumeration order: the loop over `a + b` gives the effects for `a`, then those for `b` |
| EndTerm.DeleteReposSpec | github/end-term.py:64-102 | the deleted repositories are exactly those on the list (or all when it is empty) that the token administers, whose collaborators include no owner login unless the check is off, and whose deletion succeeds |
| EndTerm.DeleteTeamsSpec | github/end-term.py:131-163 | the deleted teams are exactly those on the list (or all), with no owner member unless the check is off, whose deletion succeeds |
| EndTerm.RemoveNonOwnersSpec | github/end-term.py:105-128 | the removed members are exactly those named by the list (or all when it is empty) whose removal succeeds |
| EndTerm.DeleteErrorContinues | github/end-term.py:101-102 | a repository whose deletion raises is not deleted, and processing goes on with the next one |
| EndTerm.Clones | github/end-term.py:45-60 | at most one clone per repository |
| EndTerm.ClonesSpec | github/end-term.py:45-60 | no repository is cloned twice; a name is cloned exactly when it is an unarchived repository with no local directory; afterwards every unarchived repository is present locally |
| EndTerm.CloneSkips | github/end-term.py:47-60 | an existing directory is never cloned over, and an archived repository is never cloned unless another repository of the same name is unarchived |
| EndTerm.StagesSpec | github/end-term.py:201-219 | with no stage flag all four stages run; otherwise exactly the flagged stages run; always in the order clone, delete repositories, delete teams, remove users |
| EndTerm.Tag | github/end-term.py:205-219 | the effects of a stage are one per name and all belong to that stage |
| EndTerm.InStageOrderPrepend | github/end-term.py:205-219 | one stage's effects followed by effects of later stages are in stage order |
| EndTerm.ConcatOrdered | github/end-term.py:205-219 | running stages of increasing rank lists effects from those stages only, grouped by stage in order |
| EndTerm.StageActionsOf | github/end-term.py:205-219 | every effect of a stage belongs to that stage |
| EndTerm.RunOrdered | github/end-term.py:196-219 | every effect of a run comes from a selected stage, and effects appear stage by stage in the fixed order |
| EndTerm.ConcatFour | github/end-term.py:205-219 | four stages run one after another: their effects concatenated in order |
| EndTerm.RunAll | github/end-term.py:201-219 | without flags a run's effects are the clones, then the repository deletions, then the team deletions, then the member removals |
| EndTerm.BackupBeforeDelete | github/end-term.py:205-211 | in a full run every unarchived repository that is deleted was already local or was cloned earlier in the run: its clone comes before its deletion in the list of effects |
| EndTerm.ArchivedDeletedWithoutBackup | github/end-term.py:45-99 | an archived repository the token administers is deleted in a full run without being cloned |

## Left out

- Reading the CSV (`pd.read_csv`): quoting, type inference, and how numbers and missing values are rendered ("42.0", "nan"). Every cell is a string and headers are distinct, which is what pandas guarantees after it renames duplicates.
- Moss.GenerateMoss: file names are not sanitised, and a name with `/`, a leading `/` (which makes `os.path.join` drop the directory) or more characters than the file system allows makes `open` raise inside `apply`, ending the run after the earlier files are written. The model writes every name into the map.
- Moss reads the identity fields at positions 0..3 of the selected row, where the source looks them up by label (`row["Student ID"]`). The two agree because selection puts the identity columns first, the export's headers are distinct, and no item header (index 12 + 5k) repeats an identity label. When one does, the selected table has that label twice, `row[label]` is a two-element Series and the file name renders that Series; the model does not cover that case and reads the plain cell.
- The chat-model call (`chatgpt`, the OpenAI client, the prompt text, and a reply whose content is `None`). The model is the `oracle` parameter, which maps a cell to its reply text.
- ChatGpt.GenerateChatGpt: an error from the chat-model call itself is not modelled. The oracle always answers.
- Probability: the captured probability stays a string, as in the source; it is not converted to a number.
- ChatGpt.ResponseHeaderNames: stated only for question labels that do not themselves contain `Response`. For a label that does contain it, `replace` also rewrites the earlier occurrences, and the general rewrite is `Text.ReplaceAll` itself.
- GitHub enumeration (PyGithub paging), authentication, greeting and printing. The organisation is a record holding repositories, teams and members in enumeration order, plus the owner logins.
- `git.Repo.clone_from` and file-system side effects. A clone becomes an effect in the run's list, and the clone directory is the set `local` of names present at the start.
- Failures outside the `try` blocks, which end the script: listing owners, reading `repo.permissions`, and a clone or `makedirs` that raises. Listing collaborators or team members that raises is inside the `try`, and is modelled as `None`.
- EndTerm.Clones: a path that exists as a plain file is treated like any existing directory, as `os.path.exists` does. Directories created by a clone from another run are not modelled.
- Text.SplitLines: a file opened in text mode reads `\r\n` as one line end, translates each line end to `\n` and keeps it at the end of the line, while the model splits at every `\n` and `\r` and drops them. The lines differ only by a trailing terminator and by empty lines between `\r` and `\n`, and `load_from_file` strips each line and drops the empty ones, so the loaded list is the same.
- EndTerm.LoadFromFile: a path that exists but cannot be read (a directory, no permission, bytes that do not decode) raises and ends the script before any stage. The model has no such file and treats it as absent, giving `[]`, which selects every item.
- Rate-limit waits and `time.sleep`: they affect timing only.
- `check-token.py` and `submit-to-moss.py`: thin wrappers over a GitHub API call and the MOSS network client, with no decision logic.
- Command-line parsing (`argparse`), configuration files (`configparser`), the existence checks on the Gradescope directory and metadata file, `os.makedirs`, and `sys.exit`. The options are a record, and the list files are a map from path to contents.
- Writing the ChatGPT result to CSV, and pandas' handling of indices when it concatenates frames. The model assumes the default 0..n-1 index that `read_csv` produces.

=== FILE: chatgpt.dfy ===
/** The ChatGPT converter (`gradescope-to-chatgpt.py`, `generate_chatgpt`):
    for every row of the selected table, send each cell of a fixed slice of the
    row to the chat model, pull the probability out of each reply, and append
    the probabilities and the replies to the table as new columns.

    The chat model is a parameter: a function from the cell text to the reply
    text. The slice is `row.iloc[6:].iloc[2:6]`, which is positions 8 to 11 of
    the selected row (fewer when the row is shorter). */
module ChatGpt {
  import opened Results
  import opened Text
  import opened Gradescope
  import opened Probability

  /** Why a run produces no table. `NoRows`: the table is empty, so the column
      names are never bound. `NoProbability`: `reply`, the reply to scored cell
      `cell` of row `row`, has no probability in it. */
  datatype Failure = NoRows | NoProbability(row: nat, cell: nat, reply: string)

  const ResponseWord := "Response"
  const ScoreWord := "ChatGPT Score"
  const NarrativeWord := "ChatGPT Response"

  function Min(a: nat, b: nat): nat {
    if a <= b then a else b
  }

  /** Python's `xs[lo:hi]` for non-negative bounds: both are clamped to the length. */
  function Slice<T>(xs: seq<T>, lo: nat, hi: nat): (r: seq<T>)
    ensures |r| == if Min(lo, |xs|) <= Min(hi, |xs|) then Min(hi, |xs|) - Min(lo, |xs|) else 0
    ensures forall k :: 0 <= k < |r| ==> r[k] == xs[lo + k]
  {
    var a := Min(lo, |xs|);
    var b := Min(hi, |xs|);
    if a <= b then xs[a..b] else []
  }

  /** `row.iloc[6:].iloc[2:6]`, on a row or on the header: positions 8 up to
      11, at most four, none when there are at most eight columns. */
  function Subject<T>(xs: seq<T>): (r: seq<T>)
    ensures r == if |xs| <= 8 then [] else xs[8..Min(12, |xs|)]
    ensures |r| <= 4
  {
    Slice(Slice(xs, 6, |xs|), 2, 6)
  }

  /** `colname.replace('Response', 'ChatGPT Score')` */
  function ScoreName(h: string): string {
    ReplaceAll(h, ResponseWord, ScoreWord)
  }

  /** `colname.replace('Response', 'ChatGPT Response')` */
  function NarrativeName(h: string): string {
    ReplaceAll(h, ResponseWord, NarrativeWord)
  }

  /** The header of the result: the input columns, then one score column and
      then one narrative column per scored cell, in the same order. */
  function OutputHeader(header: seq<string>): (r: seq<string>)
    ensures |r| == |header| + 2 * |Subject(header)|
    ensures r[..|header|] == header
    ensures forall k :: 0 <= k < |Subject(header)| ==>
              && r[|header| + k] == ScoreName(Subject(header)[k])
              && r[|header| + |Subject(header)| + k] == NarrativeName(Subject(header)[k])
  {
    var subject := Subject(header);
    header
    + seq(|subject|, k requires 0 <= k < |subject| => ScoreName(subject[k]))
    + seq(|subject|, k requires 0 <= k < |subject| => NarrativeName(subject[k]))
  }

  /** A Gradescope Response header ("<question> Response") keeps its question
      label, and only its last word changes, whenever the question label does
      not itself contain `Response`. */
  lemma ResponseHeaderNames(question: string)
    requires !Contains(question, ResponseWord)
    ensures ScoreName(question + " " + ResponseWord) == question + " " + ScoreWord
    ensures NarrativeName(question + " " + ResponseWord) == question + " " + NarrativeWord
  {
    var pat := ResponseWord;
    assert forall i :: 0 <= i < |pat| ==> pat[i] != ' ';
    ReplaceSuffix(question, ' ', pat, ScoreWord);
    ReplaceSuffix(question, ' ', pat, NarrativeWord);
  }

  /** A scored column headed "<question> Response" gets the score column
      "<question> ChatGPT Score" and the narrative column
      "<question> ChatGPT Response" in the output header. */
  lemma OutputHeaderResponse(header: seq<string>, k: nat, question: string)
    requires k < |Subject(header)|
    requires Subject(header)[k] == question + " " + ResponseWord
    requires !Contains(question, ResponseWord)
    ensures OutputHeader(header)[|header| + k] == question + " " + ScoreWord
    ensures OutputHeader(header)[|header| + |Subject(header)| + k] == question + " " + NarrativeWord
  {
    ResponseHeaderNames(question);
  }

  /** The replies of the chat model to `cells`, one call per cell, in order. */
  function Replies(cells: seq<string>, oracle: string -> string): (r: seq<string>)
    ensures |r| == |cells|
  {
    if |cells| == 0 then [] else [oracle(cells[0])] + Replies(cells[1..], oracle)
  }

  lemma {:induction false} RepliesSnoc(cells: seq<string>, c: string, oracle: string -> string)
    ensures Replies(cells + [c], oracle) == Replies(cells, oracle) + [oracle(c)]
  {
    if |cells| > 0 {
      assert (cells + [c])[1..] == cells[1..] + [c];
      RepliesSnoc(cells[1..], c, oracle);
    }
  }

  lemma {:induction false} RepliesAt(cells: seq<string>, oracle: string -> string, k: nat)
    requires k < |cells|
    ensures Replies(cells, oracle)[k] == oracle(cells[k])
  {
    if k > 0 {
      RepliesAt(cells[1..], oracle, k - 1);
    }
  }

  /** The probability in every reply, or nothing if some reply has none (the
      list comprehension over `re.search(...).group(1)` raises). */
  function Scores(replies: seq<string>): Option<seq<string>> {
    if |replies| == 0 then Some([])
    else
      var head := Search(replies[0]);
      var rest := Scores(replies[1..]);
      if head.Some? && rest.Some? then Some([head.value] + rest.value) else None
  }

  /** There are scores exactly when every reply has a probability; then there
      is one per reply, in order, and each is a number. */
  lemma {:induction false} ScoresSpec(replies: seq<string>)
    ensures Scores(replies).Some? <==> forall k :: 0 <= k < |replies| ==> Search(replies[k]).Some?
    ensures Scores(replies).Some? ==> |Scores(replies).value| == |replies|
    ensures Scores(replies).Some? ==> forall k :: 0 <= k < |replies| ==>
              Search(replies[k]) == Some(Scores(replies).value[k]) && IsNumber(Scores(replies).value[k])
  {
    if |replies| > 0 {
      ScoresSpec(replies[1..]);
      SearchIsNumber(replies[0]);
      if Scores(replies).Some? {
        var r := Scores(replies).value;
        forall k | 0 < k < |replies|
          ensures Search(replies[k]) == Some(r[k]) && IsNumber(r[k])
        {
          assert replies[1..][k - 1] == replies[k];
        }
      } else if Search(replies[0]).Some? {
        var k :| 0 <= k < |replies[1..]| && Search(replies[1..][k]).None?;
        assert replies[1..][k] == replies[k + 1];
      }
    }
  }

  lemma {:induction false} ScoresOfAll(replies: seq<string>, scores: seq<string>)
    requires |scores| == |replies|
    requires forall m :: 0 <= m < |replies| ==> Search(replies[m]) == Some(scores[m])
    ensures Scores(replies) == Some(scores)
  {
    if |replies| > 0 {
      ScoresOfAll(replies[1..], scores[1..]);
      assert [scores[0]] + scores[1..] == scores;
    }
  }

  lemma ScoresFail(replies: seq<string>, j: nat)
    requires j < |replies| && Search(replies[j]).None?
    ensures Scores(replies).None?
  {
    ScoresSpec(replies);
  }

  /** Every reply to the scored cells of `row` holds a probability. */
  predicate RowScored(row: seq<string>, oracle: string -> string) {
    Scores(Replies(Subject(row), oracle)).Some?
  }

  /** The cells sent to the chat model for the first `n` rows, in order. */
  function CallsUpTo(rows: seq<seq<string>>, n: nat): seq<string>
    requires n <= |rows|
  {
    if n == 0 then [] else CallsUpTo(rows, n - 1) + Subject(rows[n - 1])
  }

  /** One chat-model call per cell, in order (`[chatgpt(column, client) for
      column in subject]`); `asked` records the cells sent. */
  method AskEach(cells: seq<string>, oracle: string -> string) returns (replies: seq<string>, asked: seq<string>)
    ensures replies == Replies(cells, oracle)
    ensures asked == cells
  {
    replies := [];
    asked := [];
    var j := 0;
    while j < |cells|
      invariant 0 <= j <= |cells|
      invariant replies == Replies(cells[..j], oracle)
      invariant asked == cells[..j]
    {
      RepliesSnoc(cells[..j], cells[j], oracle);
      assert cells[..j + 1] == cells[..j] + [cells[j]];
      replies := replies + [oracle(cells[j])];
      asked := asked + [cells[j]];
      j := j + 1;
    }
    assert cells[..j] == cells;
  }

  /** Reply `k` is the first reply without a probability. */
  predicate FirstUnscored(replies: seq<string>, k: nat) {
    && k < |replies|
    && Search(replies[k]) == None
    && forall m :: 0 <= m < k ==> Search(replies[m]).Some?
  }

  /** The probability of each reply in order; stops at the first reply that
      has none (where `.group` raises) and returns its position. */
  method ScoreEach(replies: seq<string>) returns (r: Result<seq<string>, nat>)
    ensures r.Ok? <==> Scores(replies).Some?
    ensures r.Ok? ==> r.value == Scores(replies).value
    ensures r.Err? ==> FirstUnscored(replies, r.error)
  {
    var scores: seq<string> := [];
    var j := 0;
    while j < |replies|
      invariant 0 <= j <= |replies|
      invariant |scores| == j
      invariant forall m :: 0 <= m < j ==> Search(replies[m]) == Some(scores[m])
    {
      var found := Search(replies[j]);
      if found.None? {
        ScoresFail(replies, j);
        return Err(j);
      }
      scores := scores + [found.value];
      j := j + 1;
    }
    ScoresOfAll(replies, scores);
    r := Ok(scores);
  }

  /** The row of the result for one input row: the row, then the probability
      from each reply, then the replies themselves. */
  function ResultRow(row: seq<string>, oracle: string -> string): (r: seq<string>)
    requires RowScored(row, oracle)
    ensures |r| == |row| + 2 * |Subject(row)|
  {
    var replies := Replies(Subject(row), oracle);
    ScoresSpec(replies);
    row + Scores(replies).value + replies
  }

  /** The cells of an output row: the input row, then for the k-th scored
      cell the probability found in the model's reply to it, then that reply. */
  lemma ResultRowCells(row: seq<string>, oracle: string -> string)
    requires RowScored(row, oracle)
    ensures ResultRow(row, oracle)[..|row|] == row
    ensures forall k :: 0 <= k < |Subject(row)| ==>
              && Search(oracle(Subject(row)[k])).Some?
              && ResultRow(row, oracle)[|row| + k] == Search(oracle(Subject(row)[k])).value
              && ResultRow(row, oracle)[|row| + |Subject(row)| + k] == oracle(Subject(row)[k])
  {
    var replies := Replies(Subject(row), oracle);
    ScoresSpec(replies);
    forall k | 0 <= k < |Subject(row)|
      ensures replies[k] == oracle(Subject(row)[k])
    {
      RepliesAt(Subject(row), oracle, k);
    }
  }

  /** One row of the loop: ask about each scored cell, then read every reply. */
  method ScoreRow(row: seq<string>, oracle: string -> string) returns (asked: seq<string>, out: Result<seq<string>, nat>)
    ensures asked == Subject(row)
    ensures out.Ok? <==> RowScored(row, oracle)
    ensures out.Ok? ==> out.value == ResultRow(row, oracle)
    ensures out.Err? ==> FirstUnscored(Replies(Subject(row), oracle), out.error)
  {
    var replies;
    replies, asked := AskEach(Subject(row), oracle);
    var scored := ScoreEach(replies);
    if scored.Err? {
      return asked, Err(scored.error);
    }
    out := Ok(row + scored.value + replies);
  }

  /** The result rows for `rows`, one per input row. */
  function ResultRows(rows: seq<seq<string>>, oracle: string -> string): (r: seq<seq<string>>)
    requires forall i :: 0 <= i < |rows| ==> RowScored(rows[i], oracle)
    ensures |r| == |rows|
    ensures forall i :: 0 <= i < |rows| ==> r[i] == ResultRow(rows[i], oracle)
  {
    seq(|rows|, i requires 0 <= i < |rows| => ResultRow(rows[i], oracle))
  }

  /** Result rows of equally long input rows are equally long. */
  lemma ResultRowsRectangular(header: seq<string>, rows: seq<seq<string>>, oracle: string -> string)
    requires forall i :: 0 <= i < |rows| ==> |rows[i]| == |header| && RowScored(rows[i], oracle)
    ensures Rectangular(Table(OutputHeader(header), ResultRows(rows, oracle)))
  {
    var out := ResultRows(rows, oracle);
    forall i | 0 <= i < |rows|
      ensures |out[i]| == |OutputHeader(header)|
    {
      assert |Subject(rows[i])| == |Subject(header)|;
    }
  }

  /** Row `j` is the first row that cannot be scored: every earlier row is,
      and the reply to its scored cell `k` is its first reply without a
      probability. */
  predicate FailsFirstAt(rows: seq<seq<string>>, oracle: string -> string, j: nat, k: nat) {
    && j < |rows|
    && (forall i :: 0 <= i < j ==> RowScored(rows[i], oracle))
    && !RowScored(rows[j], oracle)
    && FirstUnscored(Replies(Subject(rows[j]), oracle), k)
  }

  /** The loop of `generate_chatgpt` over the rows: scores every row in order
      and stops at the first row with a reply that has no probability, giving
      that row's index and the position of its first failing reply. */
  method ScoreRows(rows: seq<seq<string>>, oracle: string -> string)
    returns (calls: seq<string>, r: Result<seq<seq<string>>, (nat, nat)>)
    ensures r.Ok? <==> forall i :: 0 <= i < |rows| ==> RowScored(rows[i], oracle)
    ensures r.Ok? ==> calls == CallsUpTo(rows, |rows|) && |r.value| == |rows|
    ensures r.Ok? ==> forall i :: 0 <= i < |rows| ==> r.value[i] == ResultRow(rows[i], oracle)
    ensures r.Err? ==> FailsFirstAt(rows, oracle, r.error.0, r.error.1) && calls == CallsUpTo(rows, r.error.0 + 1)
  {
    calls := [];
    var done: seq<seq<string>> := [];
    var i := 0;
    while i < |rows|
      invariant 0 <= i <= |rows|
      invariant calls == CallsUpTo(rows, i)
      invariant |done| == i
      invariant forall k :: 0 <= k < i ==> RowScored(rows[k], oracle) && done[k] == ResultRow(rows[k], oracle)
    {
      var asked, out := ScoreRow(rows[i], oracle);
      calls := calls + asked;
      if out.Err? {
        assert calls == CallsUpTo(rows, i + 1);
        return calls, Err((i, out.error));
      }
      var next := done + [out.value];
      forall k | 0 <= k < i + 1
        ensures RowScored(rows[k], oracle) && next[k] == ResultRow(rows[k], oracle)
      {
        if k < i {
          assert next[k] == done[k];
        }
      }
      done := next;
      i := i + 1;
    }
    r := Ok(done);
  }

  /** `generate_chatgpt`. `calls` is the cells sent to the chat model, in the
      order they are sent. */
  method GenerateChatGpt(t: Table, oracle: string -> string) returns (calls: seq<string>, r: Result<Table, Failure>)
    requires Rectangular(t)
    ensures r.Ok? <==> |t.rows| > 0 && forall i :: 0 <= i < |t.rows| ==> RowScored(t.rows[i], oracle)
    ensures r == Err(NoRows) <==> |t.rows| == 0
    ensures r == Err(NoRows) ==> calls == []
    ensures r.Ok? ==> calls == CallsUpTo(t.rows, |t.rows|)
    ensures r.Ok? ==> r.value.header == OutputHeader(t.header)
    ensures r.Ok? ==> |r.value.rows| == |t.rows| && Rectangular(r.value)
    ensures r.Ok? ==> forall i :: 0 <= i < |t.rows| ==> r.value.rows[i] == ResultRow(t.rows[i], oracle)
    ensures r.Err? && r.error.NoProbability? ==>
              && FailsFirstAt(t.rows, oracle, r.error.row, r.error.cell)
              && r.error.reply == Replies(Subject(t.rows[r.error.row]), oracle)[r.error.cell]
              && calls == CallsUpTo(t.rows, r.error.row + 1)
  {
    var scored;
    calls, scored := ScoreRows(t.rows, oracle);
    if scored.Err? {
      var row, cell := scored.error.0, scored.error.1;
      return calls, Err(NoProbability(row, cell, Replies(Subject(t.rows[row]), oracle)[cell]));
    }
    if |t.rows| == 0 {
      // The column names are bound inside the loop, which never ran.
      return calls, Err(NoRows);
    }
    ResultRowsRectangular(t.header, t.rows, oracle);
    r := Ok(Table(OutputHeader(t.header), scored.value));
  }

  /** An export with two items: the selected table has seven columns, so the
      scored slice is empty and the result has the same seven columns, with no
      score or narrative column for either item. */
  lemma TwoItemScenario(header: seq<string>)
    requires |header| == 7
    ensures Subject(header) == []
    ensures OutputHeader(header) == header
  {
  }
}

=== FILE: endterm.dfy ===
/** The end-of-term clean-up of a GitHub organization (`end-term.py`): back up
    every repository by cloning it, then delete repositories, delete teams and
    remove non-owner members, each filtered by an optional list read from a
    file and guarded by the owner checks.

    The GitHub API and git are abstracted: the organization is a record of its
    repositories, teams and members as the API enumerates them, each carrying
    the answers the API would give (permissions, collaborators, whether a call
    raises); the local clone directory is a set of names; the file system is a
    map from path to content. A run yields the list of effects it has, in
    order. */
module EndTerm {
  import opened Results
  import opened Text

  /* ---------- Lists read from files (`load_from_file`) ---------- */

  /** Each line stripped, the empty ones dropped. */
  function CleanLines(lines: seq<string>): (r: seq<string>)
    ensures |r| <= |lines|
  {
    if |lines| == 0 then []
    else
      var x := Strip(lines[0]);
      (if |x| == 0 then [] else [x]) + CleanLines(lines[1..])
  }

  /** An entry of a list read from a file: not empty, no surrounding
      whitespace, on one line. */
  predicate IsEntry(x: string) {
    |x| > 0 && IsStripped(x) && NoLineBreak(x)
  }

  lemma StripOneLine(s: string)
    requires NoLineBreak(s)
    ensures NoLineBreak(Strip(s))
  {
    var r := Strip(s);
    StripSpec(s);
    var a :| 0 <= a <= |s| - |r| && r == s[a..a + |r|] && AllSpace(s[..a]) && AllSpace(s[a + |r|..]);
    forall i | 0 <= i < |r|
      ensures !IsLineBreak(r[i])
    {
      assert r[i] == s[a + i];
    }
  }

  /** Cleaning keeps the order of the lines and splits over concatenation. */
  lemma {:induction false} CleanLinesAppend(a: seq<string>, b: seq<string>)
    ensures CleanLines(a + b) == CleanLines(a) + CleanLines(b)
  {
    if |a| > 0 {
      assert (a + b)[0] == a[0];
      assert (a + b)[1..] == a[1..] + b;
      CleanLinesAppend(a[1..], b);
      var x := Strip(a[0]);
      var h := if |x| == 0 then [] else [x];
      assert h + (CleanLines(a[1..]) + CleanLines(b)) == (h + CleanLines(a[1..])) + CleanLines(b);
    } else {
      assert a + b == b;
    }
  }

  /** `x` is one of `lines` once stripped. */
  predicate StripsTo(lines: seq<string>, x: string) {
    exists k :: 0 <= k < |lines| && Strip(lines[k]) == x
  }

  /** The cleaned lines are exactly the non-empty stripped lines. */
  lemma {:induction false} CleanLinesMembers(lines: seq<string>)
    ensures forall x :: x in CleanLines(lines) <==> |x| > 0 && StripsTo(lines, x)
  {
    if |lines| > 0 {
      var tail := lines[1..];
      CleanLinesMembers(tail);
      var x := Strip(lines[0]);
      var h := if |x| == 0 then [] else [x];
      var rest := CleanLines(tail);
      assert CleanLines(lines) == h + rest;
      forall y | |y| > 0 && (exists k :: 0 <= k < |lines| && Strip(lines[k]) == y)
        ensures y in h + rest
      {
        var k :| 0 <= k < |lines| && Strip(lines[k]) == y;
        if k > 0 {
          assert Strip(tail[k - 1]) == y;
          assert y in rest;
        }
      }
      forall y | y in rest
        ensures exists k :: 0 <= k < |lines| && Strip(lines[k]) == y
      {
        var k :| 0 <= k < |tail| && Strip(tail[k]) == y;
        assert Strip(lines[k + 1]) == y;
      }
    }
  }

  /** Lines without line breaks clean to entries. */
  lemma {:induction false} CleanLinesEntries(lines: seq<string>)
    requires forall k :: 0 <= k < |lines| ==> NoLineBreak(lines[k])
    ensures AllEntries(CleanLines(lines))
  {
    if |lines| > 0 {
      var tail := lines[1..];
      assert forall k :: 0 <= k < |tail| ==> tail[k] == lines[k + 1];
      CleanLinesEntries(tail);
      var x := Strip(lines[0]);
      StripOneLine(lines[0]);
      StripSpec(lines[0]);
      var h := if |x| == 0 then [] else [x];
      assert AllEntries(h);
      AllEntriesAppend(h, CleanLines(tail));
    }
  }

  predicate AllEntries(xs: seq<string>) {
    forall k :: 0 <= k < |xs| ==> IsEntry(xs[k])
  }

  lemma AllEntriesAppend(a: seq<string>, b: seq<string>)
    requires AllEntries(a) && AllEntries(b)
    ensures AllEntries(a + b)
  {
    forall k | 0 <= k < |a + b|
      ensures IsEntry((a + b)[k])
    {
      if k >= |a| {
        assert (a + b)[k] == b[k - |a|];
      }
    }
  }

  /** Entries are left as they are by cleaning. */
  lemma {:induction false} CleanEntries(xs: seq<string>)
    requires forall k :: 0 <= k < |xs| ==> IsEntry(xs[k])
    ensures CleanLines(xs) == xs
  {
    if |xs| > 0 {
      StripKeepsStripped(xs[0]);
      CleanEntries(xs[1..]);
    }
  }

  /** `load_from_file`: no name, an empty name or a path that does not exist
      gives the empty list; otherwise the lines of the file, stripped, without
      the empty ones. */
  function LoadFromFile(filename: Option<string>, files: map<string, string>): (r: seq<string>)
    ensures filename.None? || |filename.value| == 0 || filename.value !in files ==> r == []
    ensures AllEntries(r)
  {
    if filename.None? || |filename.value| == 0 || filename.value !in files then []
    else
      var lines := SplitLines(files[filename.value]);
      SplitLinesNoBreak(files[filename.value]);
      CleanLinesEntries(lines);
      CleanLines(lines)
  }

  /** The entries loaded from an existing file are exactly its non-empty
      stripped lines. */
  lemma LoadFromFileMembers(filename: string, files: map<string, string>)
    requires |filename| > 0 && filename in files
    ensures forall x :: x in LoadFromFile(Some(filename), files) <==> |x| > 0 && StripsTo(SplitLines(files[filename]), x)
  {
    var lines := SplitLines(files[filename]);
    assert LoadFromFile(Some(filename), files) == CleanLines(lines);
    CleanLinesMembers(lines);
  }

  /** Writing a list of entries to a file, one per line, and loading it gives
      the list back. */
  lemma LoadWritten(name: string, xs: seq<string>, files: map<string, string>)
    requires |name| > 0
    requires forall k :: 0 <= k < |xs| ==> IsEntry(xs[k])
    ensures LoadFromFile(Some(name), files[name := JoinLines(xs)]) == xs
  {
    if |xs| == 0 {
      assert SplitLines("") == [""];
    } else {
      SplitJoinLines(xs);
      CleanEntries(xs);
    }
  }

  /** Loading, writing the list back and loading again changes nothing. */
  lemma LoadIdempotent(name: string, files: map<string, string>)
    requires |name| > 0
    ensures var xs := LoadFromFile(Some(name), files);
            LoadFromFile(Some(name), files[name := JoinLines(xs)]) == xs
  {
    LoadWritten(name, LoadFromFile(Some(name), files), files);
  }

  /** Stray blank lines, surrounding spaces and Windows line ends are
      ignored: a file holding `" a \r\n\r\nb\n"` loads as `[a, b]`. */
  lemma LoadExample(a: string, b: string, name: string)
    requires IsEntry(a) && IsEntry(b) && |name| > 0
    ensures LoadFromFile(Some(name), map[name := " " + a + " \r\n\r\n" + b + "\n"]) == [a, b]
  {
    var padded := " " + a + " ";
    var tail := "\n\r\n" + b + "\n";
    ExampleLines(padded, b, tail);
    assert padded + ['\r'] + tail == " " + a + " \r\n\r\n" + b + "\n";
    PaddedStrip(a);
    StripKeepsStripped(b);
    assert Strip("") == "";
    var lines := [padded, "", "", "", b, ""];
    assert CleanLines(lines[5..]) == [];
    assert CleanLines(lines[4..]) == [b];
    assert CleanLines(lines[3..]) == [b];
    assert CleanLines(lines[2..]) == [b];
    assert CleanLines(lines[1..]) == [b];
  }

  lemma ExampleLines(padded: string, b: string, tail: string)
    requires NoLineBreak(padded) && NoLineBreak(b)
    requires tail == "\n\r\n" + b + "\n"
    ensures SplitLines(padded + ['\r'] + tail) == [padded, "", "", "", b, ""]
  {
    assert SplitLines("") == [""];
    SplitFirstLine(b, '\n', "");
    assert b + ['\n'] + "" == b + "\n";
    SplitFirstLine("", '\n', b + "\n");
    SplitFirstLine("", '\r', "\n" + b + "\n");
    SplitFirstLine("", '\n', "\r\n" + b + "\n");
    assert "" + ['\n'] + (b + "\n") == "\n" + b + "\n";
    assert "" + ['\r'] + ("\n" + b + "\n") == "\r\n" + b + "\n";
    assert "" + ['\n'] + ("\r\n" + b + "\n") == tail;
    SplitFirstLine(padded, '\r', tail);
  }

  /** Spaces around an entry are stripped off. */
  lemma PaddedStrip(a: string)
    requires IsEntry(a)
    ensures Strip(" " + a + " ") == a
  {
    var p := " " + a + " ";
    assert p[1..] == a + " ";
    assert TrimStart(a + " ") == a + " ";
    assert TrimStart(p) == a + " ";
    assert (a + " ")[..|a|] == a;
    assert TrimEnd(a) == a;
  }

  /* ---------- The organization as the API reports it ---------- */

  /** A repository: `collaborators` is `None` when listing them raises;
      `deleteFails` says whether the delete call raises. */
  datatype Repo = Repo(name: string, archived: bool, admin: bool,
                       collaborators: Option<set<string>>, deleteFails: bool)

  /** A team: `members` is `None` when listing them raises. */
  datatype Team = Team(name: string, members: Option<set<string>>, deleteFails: bool)

  /** A member with role "member" (owners are not enumerated with that role). */
  datatype Member = Member(login: string, removeFails: bool)

  /** `repos` and `teams` in enumeration order, `members` the non-owner
      members, `owners` the logins of the members with role "admin". */
  datatype Org = Org(repos: seq<Repo>, teams: seq<Team>, members: seq<Member>, owners: set<string>)

  /** What happens to one item of a deletion stage. */
  datatype Outcome =
    | NotListed   // a list was given and the name is not on it
    | NoAdmin     // the token has no admin permission on the repository
    | HasOwner    // an owner is a collaborator or a team member
    | Error       // an API call raised; logged, and the loop goes on
    | Done        // deleted or removed

  /** An empty list selects every item; a non-empty one selects the names on it. */
  predicate Listed(list: seq<string>, name: string) {
    |list| == 0 || name in list
  }

  /** Whether some owner is among `logins` (the set intersection is non-empty). */
  predicate SharesOwner(logins: set<string>, owners: set<string>) {
    exists o :: o in owners && o in logins
  }

  /** The decision `delete_org_repos` takes for one repository. */
  function RepoOutcome(r: Repo, owners: set<string>, wanted: seq<string>, ignoreOwnerCheck: bool): Outcome {
    if !Listed(wanted, r.name) then NotListed
    else if !r.admin then NoAdmin
    else if !ignoreOwnerCheck && r.collaborators.None? then Error
    else if !ignoreOwnerCheck && SharesOwner(r.collaborators.value, owners) then HasOwner
    else if r.deleteFails then Error
    else Done
  }

  /** The decision `delete_teams` takes for one team. */
  function TeamOutcome(t: Team, owners: set<string>, wanted: seq<string>, ignoreOwnerCheck: bool): Outcome {
    if !Listed(wanted, t.name) then NotListed
    else if !ignoreOwnerCheck && t.members.None? then Error
    else if !ignoreOwnerCheck && SharesOwner(t.members.value, owners) then HasOwner
    else if t.deleteFails then Error
    else Done
  }

  /** The decision `remove_non_owners` takes for one member. */
  function MemberOutcome(m: Member, deleteUsers: seq<string>): Outcome {
    if !Listed(deleteUsers, m.login) then NotListed
    else if m.removeFails then Error
    else Done
  }

  /** A repository is deleted exactly when it is selected by the list, the
      token is an admin on it, the owner check is off or finds no owner among
      its collaborators, and the delete call goes through. */
  lemma RepoDeletedIff(r: Repo, owners: set<string>, wanted: seq<string>, ignoreOwnerCheck: bool)
    ensures RepoOutcome(r, owners, wanted, ignoreOwnerCheck) == Done <==>
              && (|wanted| == 0 || r.name in wanted)
              && r.admin
              && (ignoreOwnerCheck || (r.collaborators.Some? && forall o :: o in owners ==> o !in r.collaborators.value))
              && !r.deleteFails
  {
  }

  /** A team is deleted exactly when it is selected, the owner check is off or
      finds no owner among its members, and the delete call goes through. */
  lemma TeamDeletedIff(t: Team, owners: set<string>, wanted: seq<string>, ignoreOwnerCheck: bool)
    ensures TeamOutcome(t, owners, wanted, ignoreOwnerCheck) == Done <==>
              && (|wanted| == 0 || t.name in wanted)
              && (ignoreOwnerCheck || (t.members.Some? && forall o :: o in owners ==> o !in t.members.value))
              && !t.deleteFails
  {
  }

  /* ---------- The loops of the stages ---------- */

  /** The names of the items of `xs` for which `done` holds, in order: the
      effects of a loop that decides each item on its own and carries on after
      an item fails. */
  function Chosen<T>(xs: seq<T>, done: T -> bool, name: T -> string): (r: seq<string>)
    ensures |r| <= |xs|
  {
    if |xs| == 0 then []
    else (if done(xs[0]) then [name(xs[0])] else []) + Chosen(xs[1..], done, name)
  }

  /** A name is chosen exactly when some item with that name is done. */
  lemma {:induction false} ChosenSpec<T>(xs: seq<T>, done: T -> bool, name: T -> string)
    ensures forall x :: x in Chosen(xs, done, name) <==> exists i :: 0 <= i < |xs| && done(xs[i]) && name(xs[i]) == x
  {
    if |xs| > 0 {
      ChosenSpec(xs[1..], done, name);
      forall x | x in Chosen(xs[1..], done, name)
        ensures exists i :: 0 <= i < |xs| && done(xs[i]) && name(xs[i]) == x
      {
        var i :| 0 <= i < |xs[1..]| && done(xs[1..][i]) && name(xs[1..][i]) == x;
        assert xs[i + 1] == xs[1..][i];
      }
      forall x | exists i :: 0 <= i < |xs| && done(xs[i]) && name(xs[i]) == x
        ensures x in Chosen(xs, done, name)
      {
        var i :| 0 <= i < |xs| && done(xs[i]) && name(xs[i]) == x;
        if i > 0 {
          assert xs[1..][i - 1] == xs[i];
        }
      }
    }
  }

  /** The loop over `a + b` has the effects of the loop over `a`, then those of
      the loop over `b`: what happens to an item, a failing one included, does
      not change what happens to the items after it. */
  lemma {:induction false} ChosenAppend<T>(a: seq<T>, b: seq<T>, done: T -> bool, name: T -> string)
    ensures Chosen(a + b, done, name) == Chosen(a, done, name) + Chosen(b, done, name)
  {
    if |a| > 0 {
      assert (a + b)[0] == a[0];
      assert (a + b)[1..] == a[1..] + b;
      ChosenAppend(a[1..], b, done, name);
      var h := if done(a[0]) then [name(a[0])] else [];
      assert h + (Chosen(a[1..], done, name) + Chosen(b, done, name))
             == (h + Chosen(a[1..], done, name)) + Chosen(b, done, name);
    } else {
      assert a + b == b;
    }
  }

  /** The repositories `delete_org_repos` deletes, in order. */
  function DeleteRepos(repos: seq<Repo>, owners: set<string>, wanted: seq<string>, ignoreOwnerCheck: bool): seq<string> {
    Chosen(repos, (r: Repo) => RepoOutcome(r, owners, wanted, ignoreOwnerCheck) == Done, (r: Repo) => r.name)
  }

  /** The teams `delete_teams` deletes, in order. */
  function DeleteTeams(teams: seq<Team>, owners: set<string>, wanted: seq<string>, ignoreOwnerCheck: bool): seq<string> {
    Chosen(teams, (t: Team) => TeamOutcome(t, owners, wanted, ignoreOwnerCheck) == Done, (t: Team) => t.name)
  }

  /** The members `remove_non_owners` removes, in order. */
  function RemoveNonOwners(members: seq<Member>, deleteUsers: seq<string>): seq<string> {
    Chosen(members, (m: Member) => MemberOutcome(m, deleteUsers) == Done, (m: Member) => m.login)
  }

  /** Every deleted repository is on the list (when there is one), is one the
      token administers, has no owner among its collaborators unless the check
      is off, and was deleted without error; and every such repository is
      deleted. */
  lemma DeleteReposSpec(repos: seq<Repo>, owners: set<string>, wanted: seq<string>, ignoreOwnerCheck: bool)
    ensures forall x :: x in DeleteRepos(repos, owners, wanted, ignoreOwnerCheck) <==>
              exists i :: 0 <= i < |repos| && repos[i].name == x
                          && (|wanted| == 0 || x in wanted)
                          && repos[i].admin
                          && (ignoreOwnerCheck || (repos[i].collaborators.Some?
                                                   && forall o :: o in owners ==> o !in repos[i].collaborators.value))
                          && !repos[i].deleteFails
  {
    var done := (r: Repo) => RepoOutcome(r, owners, wanted, ignoreOwnerCheck) == Done;
    ChosenSpec(repos, done, (r: Repo) => r.name);
    forall i | 0 <= i < |repos| {
      RepoDeletedIff(repos[i], owners, wanted, ignoreOwnerCheck);
    }
  }

  /** Every deleted team is on the list (when there is one), has no owner among
      its members unless the check is off, and was deleted without error; and
      every such team is deleted. */
  lemma DeleteTeamsSpec(teams: seq<Team>, owners: set<string>, wanted: seq<string>, ignoreOwnerCheck: bool)
    ensures forall x :: x in DeleteTeams(teams, owners, wanted, ignoreOwnerCheck) <==>
              exists i :: 0 <= i < |teams| && teams[i].name == x
                          && (|wanted| == 0 || x in wanted)
                          && (ignoreOwnerCheck || (teams[i].members.Some?
                                                   && forall o :: o in owners ==> o !in teams[i].members.value))
                          && !teams[i].deleteFails
  {
    var done := (t: Team) => TeamOutcome(t, owners, wanted, ignoreOwnerCheck) == Done;
    ChosenSpec(teams, done, (t: Team) => t.name);
    forall i | 0 <= i < |teams| {
      TeamDeletedIff(teams[i], owners, wanted, ignoreOwnerCheck);
    }
  }

  /** A member is removed exactly when the list is empty or names them, and the
      removal goes through. */
  lemma RemoveNonOwnersSpec(members: seq<Member>, deleteUsers: seq<string>)
    ensures forall x :: x in RemoveNonOwners(members, deleteUsers) <==>
              exists i :: 0 <= i < |members| && members[i].login == x
                          && (|deleteUsers| == 0 || x in deleteUsers)
                          && !members[i].removeFails
  {
    ChosenSpec(members, (m: Member) => MemberOutcome(m, deleteUsers) == Done, (m: Member) => m.login);
  }

  /** A repository whose delete call raises is skipped and the loop goes on
      with the next one. */
  lemma DeleteErrorContinues(before: seq<Repo>, failing: Repo, after: seq<Repo>,
                             owners: set<string>, wanted: seq<string>, ignoreOwnerCheck: bool)
    requires failing.deleteFails
    ensures DeleteRepos(before + [failing] + after, owners, wanted, ignoreOwnerCheck)
            == DeleteRepos(before, owners, wanted, ignoreOwnerCheck) + DeleteRepos(after, owners, wanted, ignoreOwnerCheck)
  {
    var done := (r: Repo) => RepoOutcome(r, owners, wanted, ignoreOwnerCheck) == Done;
    var name := (r: Repo) => r.name;
    ChosenAppend(before + [failing], after, done, name);
    ChosenAppend(before, [failing], done, name);
    assert Chosen([failing], done, name) == [];
  }

  /* ---------- Cloning (`clone_org_repos`) ---------- */

  /** The repositories cloned, in order, when the clone directory already
      holds `local`: archived ones are skipped, and so is any name whose
      directory exists, including one cloned earlier in the same run. */
  function Clones(repos: seq<Repo>, local: set<string>): (r: seq<string>)
    ensures |r| <= |repos|
  {
    if |repos| == 0 then []
    else if repos[0].archived || repos[0].name in local then Clones(repos[1..], local)
    else [repos[0].name] + Clones(repos[1..], local + {repos[0].name})
  }

  /** Cloning clones each missing, unarchived repository once: the clones are
      distinct, none was present before, each is the name of an unarchived
      repository, and afterwards every unarchived repository is present. */
  lemma {:induction false} ClonesSpec(repos: seq<Repo>, local: set<string>)
    ensures forall k, l :: 0 <= k < l < |Clones(repos, local)| ==> Clones(repos, local)[k] != Clones(repos, local)[l]
    ensures forall x :: x in Clones(repos, local) <==>
              x !in local && exists i :: 0 <= i < |repos| && !repos[i].archived && repos[i].name == x
    ensures forall i :: 0 <= i < |repos| && !repos[i].archived ==>
              repos[i].name in local || repos[i].name in Clones(repos, local)
  {
    if |repos| > 0 {
      var r := repos[0];
      var rest := repos[1..];
      var next := if r.archived || r.name in local then local else local + {r.name};
      ClonesSpec(rest, next);
      assert forall i :: 1 <= i < |repos| ==> repos[i] == rest[i - 1];
      forall x | x !in local && (exists i :: 0 <= i < |repos| && !repos[i].archived && repos[i].name == x)
        ensures x in Clones(repos, local)
      {
        var i :| 0 <= i < |repos| && !repos[i].archived && repos[i].name == x;
        if i > 0 {
          assert rest[i - 1] == repos[i];
        }
      }
      forall x | x in Clones(rest, next)
        ensures exists i :: 0 <= i < |repos| && !repos[i].archived && repos[i].name == x
      {
        var j :| 0 <= j < |rest| && !rest[j].archived && rest[j].name == x;
        assert repos[j + 1] == rest[j];
      }
    }
  }

  /** An archived repository is never cloned, and an existing directory is
      never cloned over. */
  lemma CloneSkips(repos: seq<Repo>, local: set<string>, i: nat)
    requires i < |repos|
    ensures forall x :: x in local ==> x !in Clones(repos, local)
    ensures repos[i].archived && (forall j :: 0 <= j < |repos| && repos[j].name == repos[i].name ==> repos[j].archived)
            ==> repos[i].name !in Clones(repos, local)
  {
    ClonesSpec(repos, local);
  }

  /* ---------- Stages (`main`) ---------- */

  datatype Stage = CloneStage | DeleteReposStage | DeleteTeamsStage | RemoveUsersStage

  /** The stage flags of the command line. */
  datatype Flags = Flags(cloneOnly: bool, deleteReposOnly: bool, removeUsersOnly: bool, deleteTeamsOnly: bool)

  /** The position of a stage in a full run. */
  function Rank(s: Stage): nat {
    match s
    case CloneStage => 0
    case DeleteReposStage => 1
    case DeleteTeamsStage => 2
    case RemoveUsersStage => 3
  }

  predicate Flagged(f: Flags, s: Stage) {
    match s
    case CloneStage => f.cloneOnly
    case DeleteReposStage => f.deleteReposOnly
    case DeleteTeamsStage => f.deleteTeamsOnly
    case RemoveUsersStage => f.removeUsersOnly
  }

  predicate NoFlag(f: Flags) {
    !(f.cloneOnly || f.deleteReposOnly || f.removeUsersOnly || f.deleteTeamsOnly)
  }

  const AllStages: seq<Stage> := [CloneStage, DeleteReposStage, DeleteTeamsStage, RemoveUsersStage]

  /** The stages `main` runs, in the order it runs them. */
  function Stages(f: Flags): seq<Stage> {
    var all := NoFlag(f);
    (if all || f.cloneOnly then [CloneStage] else [])
    + (if all || f.deleteReposOnly then [DeleteReposStage] else [])
    + (if all || f.deleteTeamsOnly then [DeleteTeamsStage] else [])
    + (if all || f.removeUsersOnly then [RemoveUsersStage] else [])
  }

  /** Without a flag every stage runs; with flags exactly the flagged stages
      run; the order is always clone, delete repositories, delete teams,
      remove members. */
  lemma StagesSpec(f: Flags)
    ensures NoFlag(f) ==> Stages(f) == AllStages
    ensures forall s :: s in Stages(f) <==> NoFlag(f) || Flagged(f, s)
    ensures forall k, l :: 0 <= k < l < |Stages(f)| ==> Rank(Stages(f)[k]) < Rank(Stages(f)[l])
  {
    var r := Stages(f);
    forall s
      ensures s in r <==> NoFlag(f) || Flagged(f, s)
    {
      match s
      case CloneStage =>
      case DeleteReposStage =>
      case DeleteTeamsStage =>
      case RemoveUsersStage =>
    }
  }

  /* ---------- A whole run ---------- */

  /** The effects of a run, one per cloned repository, deleted repository,
      deleted team or removed member. */
  datatype Action = Cloned(repo: string) | RepoDeleted(repo: string) | TeamDeleted(team: string) | MemberRemoved(login: string)

  function StageOf(a: Action): Stage {
    match a
    case Cloned(_) => CloneStage
    case RepoDeleted(_) => DeleteReposStage
    case TeamDeleted(_) => DeleteTeamsStage
    case MemberRemoved(_) => RemoveUsersStage
  }

  /** The command-line options: the stage flags, the owner-check override and
      the three list files. */
  datatype Options = Options(flags: Flags, ignoreOwnerCheck: bool,
                             userFile: Option<string>, teamFile: Option<string>, repoFile: Option<string>)

  /** Everything outside the organization a run depends on: the options, the
      files, and the directories already in the clone directory. */
  datatype Setup = Setup(opts: Options, files: map<string, string>, local: set<string>)

  function Tag(names: seq<string>, s: Stage): (r: seq<Action>)
    ensures |r| == |names|
    ensures forall k :: 0 <= k < |r| ==> StageOf(r[k]) == s
  {
    seq(|names|, k requires 0 <= k < |names| =>
      match s
      case CloneStage => Cloned(names[k])
      case DeleteReposStage => RepoDeleted(names[k])
      case DeleteTeamsStage => TeamDeleted(names[k])
      case RemoveUsersStage => MemberRemoved(names[k]))
  }

  /** The effects of one stage. */
  function StageActions(s: Stage, org: Org, env: Setup): seq<Action> {
    var o := env.opts;
    match s
    case CloneStage => Tag(Clones(org.repos, env.local), s)
    case DeleteReposStage =>
      Tag(DeleteRepos(org.repos, org.owners, LoadFromFile(o.repoFile, env.files), o.ignoreOwnerCheck), s)
    case DeleteTeamsStage =>
      Tag(DeleteTeams(org.teams, org.owners, LoadFromFile(o.teamFile, env.files), o.ignoreOwnerCheck), s)
    case RemoveUsersStage =>
      Tag(RemoveNonOwners(org.members, LoadFromFile(o.userFile, env.files)), s)
  }

  /** The effects of the given stages, one stage after another. */
  function Concat(stages: seq<Stage>, f: Stage -> seq<Action>): seq<Action> {
    if |stages| == 0 then [] else f(stages[0]) + Concat(stages[1..], f)
  }

  /** `main`: the effects of the stages the flags select, stage after stage. */
  function Run(org: Org, env: Setup): seq<Action> {
    Concat(Stages(env.opts.flags), s => StageActions(s, org, env))
  }

  /** Effects listed stage by stage in the fixed order. */
  predicate InStageOrder(xs: seq<Action>) {
    forall k, l :: 0 <= k < l < |xs| ==> Rank(StageOf(xs[k])) <= Rank(StageOf(xs[l]))
  }

  /** The effects of one stage followed by effects of later stages are in
      stage order. */
  lemma InStageOrderPrepend(head: seq<Action>, s: Stage, rest: seq<Action>)
    requires forall k :: 0 <= k < |head| ==> StageOf(head[k]) == s
    requires forall k :: 0 <= k < |rest| ==> Rank(s) < Rank(StageOf(rest[k]))
    requires InStageOrder(rest)
    ensures InStageOrder(head + rest)
  {
    var r := head + rest;
    forall k, l | 0 <= k < l < |r|
      ensures Rank(StageOf(r[k])) <= Rank(StageOf(r[l]))
    {
      if k >= |head| {
        assert r[k] == rest[k - |head|] && r[l] == rest[l - |head|];
      } else if l >= |head| {
        assert r[l] == rest[l - |head|];
      }
    }
  }

  /** Running stages of increasing rank, where each stage yields only its own
      effects, lists effects grouped by stage, in stage order, each from a
      stage that was run. */
  lemma {:induction false} ConcatOrdered(stages: seq<Stage>, f: Stage -> seq<Action>)
    requires forall k, l :: 0 <= k < l < |stages| ==> Rank(stages[k]) < Rank(stages[l])
    requires forall s, k :: 0 <= k < |f(s)| ==> StageOf(f(s)[k]) == s
    ensures forall k :: 0 <= k < |Concat(stages, f)| ==> StageOf(Concat(stages, f)[k]) in stages
    ensures InStageOrder(Concat(stages, f))
  {
    if |stages| > 0 {
      var tail := stages[1..];
      assert forall k :: 0 <= k < |tail| ==> tail[k] == stages[k + 1];
      ConcatOrdered(tail, f);
      var head := f(stages[0]);
      var rest := Concat(tail, f);
      assert Concat(stages, f) == head + rest;
      forall k | 0 <= k < |rest|
        ensures Rank(stages[0]) < Rank(StageOf(rest[k]))
      {
        var j :| 0 <= j < |tail| && tail[j] == StageOf(rest[k]);
        assert stages[j + 1] == tail[j];
      }
      InStageOrderPrepend(head, stages[0], rest);
      forall k | 0 <= k < |head + rest|
        ensures StageOf((head + rest)[k]) in stages
      {
        if k >= |head| {
          assert (head + rest)[k] == rest[k - |head|];
        }
      }
    }
  }

  /** Every effect of a stage belongs to that stage. */
  lemma StageActionsOf(org: Org, env: Setup)
    ensures forall s, k :: 0 <= k < |StageActions(s, org, env)| ==> StageOf(StageActions(s, org, env)[k]) == s
  {
  }

  /** Every effect of a run belongs to a selected stage, and the effects come
      stage by stage in the fixed order. */
  lemma RunOrdered(org: Org, env: Setup)
    ensures forall k :: 0 <= k < |Run(org, env)| ==>
              NoFlag(env.opts.flags) || Flagged(env.opts.flags, StageOf(Run(org, env)[k]))
    ensures InStageOrder(Run(org, env))
  {
    StagesSpec(env.opts.flags);
    StageActionsOf(org, env);
    ConcatOrdered(Stages(env.opts.flags), s => StageActions(s, org, env));
  }

  /** Four stages run one after another. */
  lemma ConcatFour(stages: seq<Stage>, f: Stage -> seq<Action>)
    requires |stages| == 4
    ensures Concat(stages, f) == f(stages[0]) + f(stages[1]) + f(stages[2]) + f(stages[3])
  {
    var a, b, c, d := f(stages[0]), f(stages[1]), f(stages[2]), f(stages[3]);
    assert stages[1..][1..][1..][1..] == [];
    assert Concat(stages[1..][1..][1..], f) == d;
    assert Concat(stages[1..][1..], f) == c + d;
    assert Concat(stages[1..], f) == b + (c + d);
    assert a + (b + (c + d)) == a + b + c + d;
  }

  /** Without a stage flag a run clones, then deletes repositories, then
      deletes teams, then removes members. */
  lemma RunAll(org: Org, env: Setup)
    requires NoFlag(env.opts.flags)
    ensures Run(org, env) == StageActions(CloneStage, org, env) + StageActions(DeleteReposStage, org, env)
                             + StageActions(DeleteTeamsStage, org, env) + StageActions(RemoveUsersStage, org, env)
  {
    StagesSpec(env.opts.flags);
    ConcatFour(AllStages, s => StageActions(s, org, env));
  }

  /** In a full run every unarchived repository that gets deleted was in the
      clone directory already or was cloned by the run, before the deletion. */
  lemma BackupBeforeDelete(org: Org, env: Setup, i: nat)
    requires NoFlag(env.opts.flags)
    requires i < |org.repos| && !org.repos[i].archived
    requires RepoDeleted(org.repos[i].name) in Run(org, env)
    ensures org.repos[i].name in env.local || Cloned(org.repos[i].name) in Run(org, env)
    ensures org.repos[i].name !in env.local ==>
              exists a, b :: 0 <= a < b < |Run(org, env)|
                             && Run(org, env)[a] == Cloned(org.repos[i].name)
                             && Run(org, env)[b] == RepoDeleted(org.repos[i].name)
  {
    RunAll(org, env);
    ClonesSpec(org.repos, env.local);
    var names := Clones(org.repos, env.local);
    if org.repos[i].name !in env.local {
      var k :| 0 <= k < |names| && names[k] == org.repos[i].name;
      assert StageActions(CloneStage, org, env)[k] == Cloned(org.repos[i].name);
      RunOrdered(org, env);
      CloneBeforeDelete(Run(org, env), org.repos[i].name);
    }
  }

  /** In effects listed in stage order, a clone of a name comes before a
      deletion of a repository of that name. */
  lemma CloneBeforeDelete(xs: seq<Action>, name: string)
    requires InStageOrder(xs)
    requires Cloned(name) in xs && RepoDeleted(name) in xs
    ensures exists a, b :: 0 <= a < b < |xs| && xs[a] == Cloned(name) && xs[b] == RepoDeleted(name)
  {
    var a :| 0 <= a < |xs| && xs[a] == Cloned(name);
    var b :| 0 <= b < |xs| && xs[b] == RepoDeleted(name);
    assert Rank(StageOf(xs[a])) < Rank(StageOf(xs[b]));
  }

  /** An archived repository is deleted in a full run without being backed up:
      cloning skips it and deleting does not look at the flag. */
  lemma ArchivedDeletedWithoutBackup()
    ensures var stale := Repo("old", true, true, Some({}), false);
            var org := Org([stale], [], [], {"owner"});
            var env := Setup(Options(Flags(false, false, false, false), false, None, None, None), map[], {});
            Run(org, env) == [RepoDeleted("old")]
  {
    var stale := Repo("old", true, true, Some({}), false);
    var org := Org([stale], [], [], {"owner"});
    var env := Setup(Options(Flags(false, false, false, false), false, None, None, None), map[], {});
    RunAll(org, env);
    assert Clones([stale], {}) == [];
    assert !SharesOwner({}, {"owner"});
    assert RepoOutcome(stale, {"owner"}, [], false) == Done;
  }
}

=== FILE: gradescope.dfy ===
/** A Gradescope "submission_metadata.csv" export and the column selection both
    plagiarism converters apply to it (`parse_metadata`).

    The export starts with nine fixed columns (First Name, Last Name, Student
    ID, Email, Sections, Status, Submission ID, Total Score, Max Points) and then
    has five columns per graded item, starting at column 9: Score, Weight,
    Graded?, Response, Submitted At. The selection keeps the five identity
    columns and the header at every index 12, 17, 22, ... below the column
    count: the Response column of each item group. */
module Gradescope {
  import opened Results

  /** The identity columns kept, in the order they are kept. */
  const Identity: seq<string> := ["First Name", "Last Name", "Student ID", "Email", "Submission ID"]

  /** The header and the rows of an export, every cell as text. */
  datatype Table = Table(header: seq<string>, rows: seq<seq<string>>)

  /** The labels the selection asks for that the export does not have. */
  datatype MissingColumns = MissingColumns(labels: seq<string>)

  predicate Rectangular(t: Table) {
    forall i :: 0 <= i < |t.rows| ==> |t.rows[i]| == |t.header|
  }

  predicate Distinct(xs: seq<string>) {
    forall i, j :: 0 <= i < j < |xs| ==> xs[i] != xs[j]
  }

  /** What the CSV reader guarantees: every row has one cell per column, and
      column names are distinct (a repeated name is renamed on reading). */
  predicate WellFormed(t: Table) {
    Rectangular(t) && Distinct(t.header)
  }

  /** Python's `range(from, n, 5)`. */
  function Slots(from: nat, n: nat): (r: seq<nat>)
    ensures forall i :: i in r ==> from <= i < n
    decreases n - from
  {
    if from >= n then [] else [from] + Slots(from + 5, n)
  }

  lemma {:induction false} SlotsShape(from: nat, n: nat)
    ensures |Slots(from, n)| == if from >= n then 0 else (n - from + 4) / 5
    ensures forall k :: 0 <= k < |Slots(from, n)| ==> Slots(from, n)[k] == from + 5 * k
    decreases n - from
  {
    if from < n {
      SlotsShape(from + 5, n);
    }
  }

  /** The indices of the Response columns of an export with `n` columns:
      `range(12, n, 5)`. */
  function ItemIndices(n: nat): seq<nat> {
    Slots(12, n)
  }

  /** The selected indices are exactly the numbers `12 + 5k` below `n`, in
      increasing order. */
  lemma ItemIndicesSpec(n: nat)
    ensures |ItemIndices(n)| == if n <= 12 then 0 else (n - 8) / 5
    ensures forall k :: 0 <= k < |ItemIndices(n)| ==> ItemIndices(n)[k] == 12 + 5 * k
    ensures forall i: nat :: i in ItemIndices(n) <==> 12 <= i < n && (i - 12) % 5 == 0
    ensures forall k, l :: 0 <= k < l < |ItemIndices(n)| ==> ItemIndices(n)[k] < ItemIndices(n)[l]
  {
    SlotsShape(12, n);
    var idx := ItemIndices(n);
    forall i: nat | 12 <= i < n && (i - 12) % 5 == 0
      ensures i in idx
    {
      var k := (i - 12) / 5;
      assert idx[k] == i;
    }
  }

  /** Each selected index is the Response slot (offset 3) of an item group that
      starts at column 9. */
  lemma ItemIndexIsResponseSlot(n: nat, i: nat)
    requires i in ItemIndices(n)
    ensures i < n && i >= 9 && (i - 9) % 5 == 3
  {
    ItemIndicesSpec(n);
  }

  /** An export laid out as nine fixed columns plus `k` five-column groups has
      `k` items; the 64-column header quoted at the top of the converter has 11. */
  lemma ItemCountOfLayout(k: nat)
    ensures |ItemIndices(9 + 5 * k)| == k
    ensures |ItemIndices(64)| == 11
  {
    ItemIndicesSpec(9 + 5 * k);
    ItemIndicesSpec(64);
  }

  /** An export with no item group past the fixed columns selects no item. */
  lemma NoItemsInShortExport(n: nat)
    requires n <= 12
    ensures ItemIndices(n) == []
  {
    ItemIndicesSpec(n);
  }

  /** The labels `parse_metadata` selects: the identity labels, then the header
      of each Response column, left to right. */
  function SelectedColumns(header: seq<string>): (r: seq<string>)
    ensures |r| == 5 + |ItemIndices(|header|)|
    ensures r[..5] == Identity
    ensures forall k :: 5 <= k < |r| ==> 12 + 5 * (k - 5) < |header| && r[k] == header[12 + 5 * (k - 5)]
  {
    var idx := ItemIndices(|header|);
    SlotsShape(12, |header|);
    Identity + seq(|idx|, k requires 0 <= k < |idx| => header[idx[k]])
  }

  /** The first position of `x` in `xs`. */
  function IndexOf(xs: seq<string>, x: string): (r: Option<nat>)
    ensures r.Some? ==> r.value < |xs| && xs[r.value] == x
    ensures r.Some? ==> forall j :: 0 <= j < r.value ==> xs[j] != x
    ensures r.None? <==> x !in xs
  {
    if |xs| == 0 then None
    else if xs[0] == x then Some(0)
    else match IndexOf(xs[1..], x)
      case None => None
      case Some(j) => Some(j + 1)
  }

  /** The labels among `wanted` that `header` lacks, in order. */
  function MissingLabels(header: seq<string>, wanted: seq<string>): (r: seq<string>)
    ensures forall x :: x in r <==> x in wanted && x !in header
  {
    if |wanted| == 0 then []
    else (if wanted[0] in header then [] else [wanted[0]]) + MissingLabels(header, wanted[1..])
  }

  /** Selects the named columns of one row (`metadata[columns]`). */
  function Project(header: seq<string>, row: seq<string>, labels: seq<string>): (r: seq<string>)
    requires |row| == |header|
    requires forall k :: 0 <= k < |labels| ==> labels[k] in header
    ensures |r| == |labels|
    ensures forall k :: 0 <= k < |labels| ==> header[IndexOf(header, labels[k]).value] == labels[k]
                                              && r[k] == row[IndexOf(header, labels[k]).value]
  {
    seq(|labels|, k requires 0 <= k < |labels| => row[IndexOf(header, labels[k]).value])
  }

  lemma IndexOfDistinct(xs: seq<string>, c: nat)
    requires Distinct(xs) && c < |xs|
    ensures IndexOf(xs, xs[c]) == Some(c)
  {
  }

  /** Every selected label is in the header exactly when every identity label is. */
  lemma SelectedPresent(header: seq<string>)
    ensures (forall k :: 0 <= k < |SelectedColumns(header)| ==> SelectedColumns(header)[k] in header)
            <==> (forall j :: 0 <= j < 5 ==> Identity[j] in header)
  {
    var labels := SelectedColumns(header);
    assert forall j :: 0 <= j < 5 ==> labels[j] == Identity[j] by {
      assert labels[..5] == Identity;
    }
  }

  /** The cells `Project` picks are the cells under the same label. */
  lemma ProjectedCells(header: seq<string>, row: seq<string>, labels: seq<string>)
    requires Distinct(header) && |row| == |header|
    requires forall k :: 0 <= k < |labels| ==> labels[k] in header
    ensures forall k, c :: 0 <= k < |labels| && 0 <= c < |header| && header[c] == labels[k]
                           ==> Project(header, row, labels)[k] == row[c]
  {
    forall k, c | 0 <= k < |labels| && 0 <= c < |header| && header[c] == labels[k]
      ensures Project(header, row, labels)[k] == row[c]
    {
      IndexOfDistinct(header, c);
    }
  }

  /** `parse_metadata`: keeps the identity columns and the Response column of
      every item group, each cell staying under its label. Fails, like the
      indexing in the source, when an identity label is absent; item labels come
      from the header and are always present. */
  function ParseMetadata(t: Table): (r: Result<Table, MissingColumns>)
    requires WellFormed(t)
    ensures r.Err? <==> exists j :: 0 <= j < 5 && Identity[j] !in t.header
    ensures r.Err? ==> forall x :: x in r.error.labels <==> x in Identity && x !in t.header
    ensures r.Ok? ==> r.value.header == SelectedColumns(t.header)
    ensures r.Ok? ==> |r.value.rows| == |t.rows| && Rectangular(r.value)
    ensures r.Ok? ==> forall i, k, c ::
                        (0 <= i < |t.rows| && 0 <= k < |r.value.header| && 0 <= c < |t.header|
                         && t.header[c] == r.value.header[k])
                        ==> r.value.rows[i][k] == t.rows[i][c]
  {
    var labels := SelectedColumns(t.header);
    SelectedPresent(t.header);
    if exists j :: 0 <= j < 5 && Identity[j] !in t.header then
      Err(MissingColumns(MissingLabels(t.header, Identity)))
    else
      var rows := seq(|t.rows|, i requires 0 <= i < |t.rows| => Project(t.header, t.rows[i], labels));
      forall i | 0 <= i < |t.rows| {
        ProjectedCells(t.header, t.rows[i], labels);
      }
      Ok(Table(labels, rows))
  }

  /** After selection, column `k >= 5` of every row holds the export's cell at
      index `12 + 5 (k - 5)`: the Response of the `(k - 4)`th item. */
  lemma SelectedItemCells(t: Table, i: nat, k: nat)
    requires WellFormed(t) && ParseMetadata(t).Ok?
    requires i < |t.rows| && 5 <= k < |ParseMetadata(t).value.header|
    ensures 12 + 5 * (k - 5) < |t.header|
    ensures ParseMetadata(t).value.rows[i][k] == t.rows[i][12 + 5 * (k - 5)]
  {
    var s := ParseMetadata(t).value;
    SelectedColumnAt(t.header, k);
    var c := 12 + 5 * (k - 5);
    assert s.header[k] == t.header[c];
    assert s.rows[i][k] == t.rows[i][c];
  }

  lemma SelectedColumnAt(header: seq<string>, k: nat)
    requires 5 <= k < |SelectedColumns(header)|
    ensures 12 + 5 * (k - 5) < |header| && SelectedColumns(header)[k] == header[12 + 5 * (k - 5)]
  {
  }

  /** After selection, columns 0..4 of every row hold the identity cells. */
  lemma SelectedIdentityCells(t: Table, i: nat, j: nat, c: nat)
    requires WellFormed(t) && ParseMetadata(t).Ok?
    requires i < |t.rows| && j < 5 && c < |t.header| && t.header[c] == Identity[j]
    ensures ParseMetadata(t).value.header[j] == Identity[j]
    ensures ParseMetadata(t).value.rows[i][j] == t.rows[i][c]
  {
    var s := ParseMetadata(t).value;
    assert s.header[..5] == Identity;
    assert s.header[j] == s.header[..5][j];
  }
}

=== FILE: moss.dfy ===
/** The MOSS converter (`gradescope-to-moss.py`): one text file per selected
    row, written into an output directory that is modelled as a map from file
    name to content.

    Rows here are rows of the selected table, so positions 0..4 hold First
    Name, Last Name, Student ID, Email and Submission ID, and position 5 onwards
    the item responses. The body is written from position 6 on, as the source
    does: the first response column and the Submission ID never reach the file,
    and item labels are written as they appear in the header, " Response"
    included. */
module Moss {
  import opened Results
  import opened Gradescope

  /** The blank lines that end the identity block and every item section. */
  const BlockEnd := "\n\n\n\n"

  /** The first row position whose column is written into the body. */
  const FirstWritten: nat := 6

  /** Every row has one cell per header label, and at least the identity cells. */
  predicate Fits(header: seq<string>, rows: seq<seq<string>>) {
    |header| >= 5 && forall i :: 0 <= i < |rows| ==> |rows[i]| == |header|
  }

  /** `f"{student_id}-{first_name}-{last_name}.txt"`, with no sanitising. */
  function FileName(row: seq<string>): (r: string)
    requires |row| >= 5
  {
    row[2] + "-" + row[0] + "-" + row[1] + ".txt"
  }

  /** First name, last name, student id and email, one per line, then blank lines. */
  function Preamble(row: seq<string>): string
    requires |row| >= 5
  {
    row[0] + "\n" + row[1] + "\n" + row[2] + "\n" + row[3] + BlockEnd
  }

  /** One item: its heading, a blank line, the response, blank lines. */
  function Section(heading: string, value: string): string {
    heading + "\n\n" + value + BlockEnd
  }

  /** The sections for positions `from` onwards, in column order (the source's
      loop over `row.iloc[6:]`). */
  function Sections(header: seq<string>, row: seq<string>, from: nat): string
    requires |header| == |row|
    decreases |row| - from
  {
    if from >= |row| then "" else Section(header[from], row[from]) + Sections(header, row, from + 1)
  }

  /** The content `generate_moss_file` writes for one row. */
  function Body(header: seq<string>, row: seq<string>): string
    requires |header| == |row| >= 5
  {
    Preamble(row) + Sections(header, row, FirstWritten)
  }

  /** The (heading, response) pairs that reach the file: positions 6 onwards. */
  function Written(header: seq<string>, row: seq<string>): (r: seq<(string, string)>)
    requires |header| == |row|
    ensures |r| == if |row| <= FirstWritten then 0 else |row| - FirstWritten
  {
    if |row| <= FirstWritten then []
    else seq(|row| - FirstWritten, k requires 0 <= k < |row| - FirstWritten =>
               (header[FirstWritten + k], row[FirstWritten + k]))
  }

  /** Renders (heading, response) pairs one section after another. */
  function Render(entries: seq<(string, string)>): string {
    if |entries| == 0 then "" else Section(entries[0].0, entries[0].1) + Render(entries[1..])
  }

  lemma {:induction false} SectionsRenderSuffix(header: seq<string>, row: seq<string>, from: nat)
    requires |header| == |row| && from <= |row|
    ensures Sections(header, row, from) == Render(seq(|row| - from, k requires 0 <= k < |row| - from =>
                                                    (header[from + k], row[from + k])))
    decreases |row| - from
  {
    var e := seq(|row| - from, k requires 0 <= k < |row| - from => (header[from + k], row[from + k]));
    if from < |row| {
      SectionsRenderSuffix(header, row, from + 1);
      assert e[1..] == seq(|row| - (from + 1), k requires 0 <= k < |row| - (from + 1) =>
                             (header[from + 1 + k], row[from + 1 + k]));
    }
  }

  /** The body is the identity block followed by exactly the written pairs, in
      column order. */
  lemma BodyLayout(header: seq<string>, row: seq<string>)
    requires |header| == |row| >= 5
    ensures Body(header, row) == Preamble(row) + Render(Written(header, row))
  {
    if |row| <= FirstWritten {
      assert Sections(header, row, FirstWritten) == "";
    } else {
      SectionsRenderSuffix(header, row, FirstWritten);
    }
  }

  /** Neither the Submission ID column (position 4) nor the first response
      column (position 5) is written: no written heading is theirs, and a selected
      table with at most one item produces the identity block alone. */
  lemma FirstResponseNotWritten(header: seq<string>, row: seq<string>)
    requires |header| == |row| >= 5 && Distinct(header)
    ensures forall e :: e in Written(header, row) ==> e.0 != header[4]
    ensures |header| > 5 ==> forall e :: e in Written(header, row) ==> e.0 != header[5]
    ensures |row| <= 6 ==> Body(header, row) == Preamble(row)
  {
    BodyLayout(header, row);
  }

  /** Appending a column after position 5 appends its section to the body. */
  lemma {:induction false} BodyAppend(header: seq<string>, row: seq<string>, heading: string, value: string)
    requires |header| == |row| >= FirstWritten
    ensures Body(header + [heading], row + [value]) == Body(header, row) + Section(heading, value)
  {
    BodyLayout(header, row);
    BodyLayout(header + [heading], row + [value]);
    var w := Written(header, row);
    var w' := Written(header + [heading], row + [value]);
    assert w' == w + [(heading, value)];
    RenderAppend(w, (heading, value));
    var p := Preamble(row);
    assert Preamble(row + [value]) == p;
    assert p + (Render(w) + Section(heading, value)) == (p + Render(w)) + Section(heading, value);
  }

  lemma {:induction false} RenderAppend(entries: seq<(string, string)>, e: (string, string))
    ensures Render(entries + [e]) == Render(entries) + Section(e.0, e.1)
  {
    if |entries| > 0 {
      assert (entries + [e])[0] == entries[0];
      assert (entries + [e])[1..] == entries[1..] + [e];
      RenderAppend(entries[1..], e);
      var h := Section(entries[0].0, entries[0].1);
      assert h + (Render(entries[1..]) + Section(e.0, e.1)) == (h + Render(entries[1..])) + Section(e.0, e.1);
    } else {
      assert entries + [e] == [e];
    }
  }

  /** A record for Ada Lovelace, student id 42: the file name and the identity
      block follow the f-strings, but with a single item the item is at
      position 5 and is not written; a second item is. */
  lemma AdaLovelaceExample()
    ensures FileName(["Ada", "Lovelace", "42", "a@x.edu", "7", "hello world"]) == "42-Ada-Lovelace.txt"
    ensures Body(Identity + ["Q1"], ["Ada", "Lovelace", "42", "a@x.edu", "7", "hello world"])
            == "Ada\nLovelace\n42\na@x.edu\n\n\n\n"
    ensures Body(Identity + ["Q1", "Q2"], ["Ada", "Lovelace", "42", "a@x.edu", "7", "hello world", "bye"])
            == "Ada\nLovelace\n42\na@x.edu\n\n\n\n" + "Q2\n\nbye\n\n\n\n"
  {
    var h := Identity + ["Q1"];
    var row := ["Ada", "Lovelace", "42", "a@x.edu", "7", "hello world"];
    assert Sections(h, row, 6) == "";
    BodyAppend(h, row, "Q2", "bye");
    assert h + ["Q2"] == Identity + ["Q1", "Q2"];
    assert row + ["bye"] == ["Ada", "Lovelace", "42", "a@x.edu", "7", "hello world", "bye"];
  }

  predicate NoDash(s: string) {
    forall i :: 0 <= i < |s| ==> s[i] != '-'
  }

  lemma {:induction false} SplitAtDash(a: string, x: string, b: string, y: string)
    requires NoDash(a) && NoDash(b)
    requires a + "-" + x == b + "-" + y
    ensures a == b && x == y
  {
    var s := a + "-" + x;
    assert |a| == |b| by {
      assert s[|a|] == '-' && (b + "-" + y)[|b|] == '-';
    }
    assert a == s[..|a|] == b;
    assert x == s[|a| + 1..] == y;
  }

  /** When no name field contains a dash, the file name determines the student
      id, first name and last name. */
  lemma FileNameDeterminesIdentity(row1: seq<string>, row2: seq<string>)
    requires |row1| >= 5 && |row2| >= 5
    requires NoDash(row1[0]) && NoDash(row1[2]) && NoDash(row2[0]) && NoDash(row2[2])
    requires FileName(row1) == FileName(row2)
    ensures row1[0] == row2[0] && row1[1] == row2[1] && row1[2] == row2[2]
  {
    assert FileName(row1) == row1[2] + "-" + (row1[0] + "-" + row1[1] + ".txt");
    assert FileName(row2) == row2[2] + "-" + (row2[0] + "-" + row2[1] + ".txt");
    SplitAtDash(row1[2], row1[0] + "-" + row1[1] + ".txt", row2[2], row2[0] + "-" + row2[1] + ".txt");
    assert row1[0] + "-" + row1[1] + ".txt" == row1[0] + "-" + (row1[1] + ".txt");
    assert row2[0] + "-" + row2[1] + ".txt" == row2[0] + "-" + (row2[1] + ".txt");
    SplitAtDash(row1[0], row1[1] + ".txt", row2[0], row2[1] + ".txt");
    assert row1[1] == (row1[1] + ".txt")[..|row1[1]|];
    assert row2[1] == (row2[1] + ".txt")[..|row2[1]|];
  }

  /** Without sanitising, two different students can share a file name, so one
      file overwrites the other. */
  lemma FileNameCollision()
    ensures var a := ["Ann", "Lee", "1-Bo", "a@x.edu", "s1"];
            var b := ["Bo-Ann", "Lee", "1", "b@x.edu", "s2"];
            a[..3] != b[..3] && FileName(a) == FileName(b)
  {
    var a := ["Ann", "Lee", "1-Bo", "a@x.edu", "s1"];
    var b := ["Bo-Ann", "Lee", "1", "b@x.edu", "s2"];
    assert a[2] != b[2];
    assert FileName(a) == "1-Bo-Ann-Lee.txt";
    assert FileName(b) == "1-Bo-Ann-Lee.txt";
  }

  /** The writes of `generate_moss_file` for `rows`, one file per row in
      table order, each replacing any file of the same name. */
  function WriteRows(dir: map<string, string>, header: seq<string>, rows: seq<seq<string>>): map<string, string>
    requires Fits(header, rows)
    decreases |rows|
  {
    if |rows| == 0 then dir
    else WriteRows(dir[FileName(rows[0]) := Body(header, rows[0])], header, rows[1..])
  }

  /** The last row whose file is called `name`. */
  function LastWriter(rows: seq<seq<string>>, name: string): (r: Option<nat>)
    requires forall i :: 0 <= i < |rows| ==> |rows[i]| >= 5
    ensures r.Some? ==> r.value < |rows| && FileName(rows[r.value]) == name
    ensures r.Some? ==> forall j :: r.value < j < |rows| ==> FileName(rows[j]) != name
    ensures r.None? ==> forall j :: 0 <= j < |rows| ==> FileName(rows[j]) != name
  {
    if |rows| == 0 then None
    else if FileName(rows[|rows| - 1]) == name then Some(|rows| - 1)
    else LastWriter(rows[..|rows| - 1], name)
  }

  lemma {:induction false} WriteRowsSnoc(dir: map<string, string>, header: seq<string>, rows: seq<seq<string>>, x: seq<string>)
    requires Fits(header, rows) && |x| == |header|
    ensures Fits(header, rows + [x])
    ensures WriteRows(dir, header, rows + [x]) == WriteRows(dir, header, rows)[FileName(x) := Body(header, x)]
    decreases |rows|
  {
    if |rows| > 0 {
      assert (rows + [x])[0] == rows[0];
      assert (rows + [x])[1..] == rows[1..] + [x];
      WriteRowsSnoc(dir[FileName(rows[0]) := Body(header, rows[0])], header, rows[1..], x);
    }
  }

  /** Last writer wins: a file named by some row holds the body of the last
      such row; every other file of `dir` is left as it was, and no other file
      appears. */
  lemma {:induction false} WriteRowsSpec(dir: map<string, string>, header: seq<string>, rows: seq<seq<string>>, name: string)
    requires Fits(header, rows)
    ensures LastWriter(rows, name).Some? ==>
              name in WriteRows(dir, header, rows)
              && WriteRows(dir, header, rows)[name] == Body(header, rows[LastWriter(rows, name).value])
    ensures LastWriter(rows, name).None? ==>
              (name in WriteRows(dir, header, rows) <==> name in dir)
              && (name in dir ==> WriteRows(dir, header, rows)[name] == dir[name])
    decreases |rows|
  {
    if |rows| > 0 {
      var init := rows[..|rows| - 1];
      var last := rows[|rows| - 1];
      assert rows == init + [last];
      WriteRowsSnoc(dir, header, init, last);
      WriteRowsSpec(dir, header, init, name);
    }
  }

  /** The files `WriteRows` leaves: those already there and one per row. */
  lemma WriteRowsKeys(dir: map<string, string>, header: seq<string>, rows: seq<seq<string>>)
    requires Fits(header, rows)
    ensures WriteRows(dir, header, rows).Keys
            == dir.Keys + set i | 0 <= i < |rows| :: FileName(rows[i])
  {
    var out := WriteRows(dir, header, rows);
    var names := set i | 0 <= i < |rows| :: FileName(rows[i]);
    forall name
      ensures name in out <==> name in dir || name in names
    {
      WriteRowsSpec(dir, header, rows, name);
      if name in names {
        var i :| 0 <= i < |rows| && FileName(rows[i]) == name;
      }
    }
  }

  /** Running the conversion again over the same rows leaves every file
      byte-for-byte as the first run left it. */
  lemma WriteRowsIdempotent(dir: map<string, string>, header: seq<string>, rows: seq<seq<string>>)
    requires Fits(header, rows)
    ensures WriteRows(WriteRows(dir, header, rows), header, rows) == WriteRows(dir, header, rows)
  {
    var once := WriteRows(dir, header, rows);
    var twice := WriteRows(once, header, rows);
    forall name
      ensures name in twice <==> name in once
      ensures name in once ==> twice[name] == once[name]
    {
      WriteRowsSpec(dir, header, rows, name);
      WriteRowsSpec(once, header, rows, name);
    }
  }

  /** A row of NaN as the f-strings of `generate_moss_file` render it. */
  function NanRow(n: nat): (r: seq<string>)
    ensures |r| == n && forall k :: 0 <= k < n ==> r[k] == "nan"
  {
    seq(n, k => "nan")
  }

  /** The rows `submissions.apply(..., axis=1)` calls `generate_moss_file` on:
      the table's rows in order or, for a table without rows, a single row of
      NaN that pandas passes to find out whether the function reduces. */
  function AppliedRows(header: seq<string>, rows: seq<seq<string>>): seq<seq<string>> {
    if |rows| == 0 then [NanRow(|header|)] else rows
  }

  lemma AppliedRowsFit(header: seq<string>, rows: seq<seq<string>>)
    requires Fits(header, rows)
    ensures Fits(header, AppliedRows(header, rows))
  {
  }

  /** `generate_moss`: the files in `dir` after the writes of every applied row. */
  function WriteAll(dir: map<string, string>, header: seq<string>, rows: seq<seq<string>>): map<string, string>
    requires Fits(header, rows)
  {
    AppliedRowsFit(header, rows);
    WriteRows(dir, header, AppliedRows(header, rows))
  }

  /** Last writer wins over the applied rows: a file named by one of them
      holds the body of the last such row; every other file of `dir` is left as
      it was, and no other file appears. */
  lemma WriteAllSpec(dir: map<string, string>, header: seq<string>, rows: seq<seq<string>>, name: string)
    requires Fits(header, rows)
    ensures var applied := AppliedRows(header, rows);
            LastWriter(applied, name).Some? ==>
              name in WriteAll(dir, header, rows)
              && WriteAll(dir, header, rows)[name] == Body(header, applied[LastWriter(applied, name).value])
    ensures var applied := AppliedRows(header, rows);
            LastWriter(applied, name).None? ==>
              (name in WriteAll(dir, header, rows) <==> name in dir)
              && (name in dir ==> WriteAll(dir, header, rows)[name] == dir[name])
  {
    AppliedRowsFit(header, rows);
    WriteRowsSpec(dir, header, AppliedRows(header, rows), name);
  }

  /** The files afterwards: those already there and one per applied row. */
  lemma WriteAllKeys(dir: map<string, string>, header: seq<string>, rows: seq<seq<string>>)
    requires Fits(header, rows)
    ensures var applied := AppliedRows(header, rows);
            WriteAll(dir, header, rows).Keys == dir.Keys + set i | 0 <= i < |applied| :: FileName(applied[i])
  {
    AppliedRowsFit(header, rows);
    WriteRowsKeys(dir, header, AppliedRows(header, rows));
  }

  /** Running the conversion again over the same table leaves every file as
      the first run left it. */
  lemma WriteAllIdempotent(dir: map<string, string>, header: seq<string>, rows: seq<seq<string>>)
    requires Fits(header, rows)
    ensures WriteAll(WriteAll(dir, header, rows), header, rows) == WriteAll(dir, header, rows)
  {
    AppliedRowsFit(header, rows);
    WriteRowsIdempotent(dir, header, AppliedRows(header, rows));
  }

  /** A table without rows still writes one file: `nan-nan-nan.txt`, holding
      `nan` for each identity field and for every column from position 6 on. */
  lemma EmptyTableWritesNan(dir: map<string, string>, header: seq<string>)
    requires |header| >= 5
    ensures WriteAll(dir, header, []) == dir["nan-nan-nan.txt" := Body(header, NanRow(|header|))]
    ensures Body(header, NanRow(|header|))
            == "nan\nnan\nnan\nnan\n\n\n\n" + Render(Written(header, NanRow(|header|)))
    ensures forall e :: e in Written(header, NanRow(|header|)) ==> e.1 == "nan"
  {
    var nan := NanRow(|header|);
    assert AppliedRows(header, []) == [nan];
    assert WriteRows(dir, header, [nan]) == WriteRows(dir[FileName(nan) := Body(header, nan)], header, []);
    NanNames(|header|);
    BodyLayout(header, nan);
  }

  lemma NanNames(n: nat)
    requires n >= 5
    ensures FileName(NanRow(n)) == "nan-nan-nan.txt"
    ensures Preamble(NanRow(n)) == "nan\nnan\nnan\nnan\n\n\n\n"
  {
    var nan := NanRow(n);
    assert nan[0] == "nan" && nan[1] == "nan" && nan[2] == "nan" && nan[3] == "nan";
  }

  /** What writing a selected table does: a table without rows writes the
      NaN file; otherwise every row's file is written, the file of the last
      row with a name holds that row's body, and a file of `dir` that no row
      names keeps its content. */
  lemma WriteAllTable(dir: map<string, string>, s: Table)
    requires Fits(s.header, s.rows)
    ensures |s.rows| == 0 ==> WriteAll(dir, s.header, s.rows) == dir["nan-nan-nan.txt" := Body(s.header, NanRow(|s.header|))]
    ensures |s.rows| > 0 ==>
              WriteAll(dir, s.header, s.rows).Keys == dir.Keys + set i | 0 <= i < |s.rows| :: FileName(s.rows[i])
    ensures |s.rows| > 0 ==>
              forall name :: name in dir && (forall i :: 0 <= i < |s.rows| ==> FileName(s.rows[i]) != name) ==>
                WriteAll(dir, s.header, s.rows)[name] == dir[name]
    ensures forall i :: 0 <= i < |s.rows| ==>
              FileName(s.rows[i]) in WriteAll(dir, s.header, s.rows)
              && (LastWriter(s.rows, FileName(s.rows[i])) == Some(i) ==>
                    WriteAll(dir, s.header, s.rows)[FileName(s.rows[i])] == Body(s.header, s.rows[i]))
  {
    var out := WriteAll(dir, s.header, s.rows);
    if |s.rows| == 0 {
      EmptyTableWritesNan(dir, s.header);
    } else {
      WriteAllKeys(dir, s.header, s.rows);
      forall name | name in dir && (forall i :: 0 <= i < |s.rows| ==> FileName(s.rows[i]) != name)
        ensures out[name] == dir[name]
      {
        WriteAllSpec(dir, s.header, s.rows, name);
      }
      forall i | 0 <= i < |s.rows|
        ensures FileName(s.rows[i]) in out
                && (LastWriter(s.rows, FileName(s.rows[i])) == Some(i) ==> out[FileName(s.rows[i])] == Body(s.header, s.rows[i]))
      {
        WriteAllSpec(dir, s.header, s.rows, FileName(s.rows[i]));
      }
    }
  }

  /** The whole converter: select the columns of the sheet, then write the
      file of every applied row into `dir`. */
  function GenerateMoss(sheet: Table, dir: map<string, string>): (r: Result<map<string, string>, MissingColumns>)
    requires WellFormed(sheet)
    ensures r.Err? <==> exists j :: 0 <= j < 5 && Identity[j] !in sheet.header
    ensures r.Ok? && |sheet.rows| == 0 ==>
              var s := ParseMetadata(sheet).value;
              r.value == dir["nan-nan-nan.txt" := Body(s.header, NanRow(|s.header|))]
    ensures r.Ok? && |sheet.rows| > 0 ==>
              var s := ParseMetadata(sheet).value;
              && r.value.Keys == dir.Keys + (set i | 0 <= i < |s.rows| :: FileName(s.rows[i]))
              && forall name :: name in dir && (forall i :: 0 <= i < |s.rows| ==> FileName(s.rows[i]) != name) ==>
                   r.value[name] == dir[name]
    ensures r.Ok? ==> forall i :: 0 <= i < |sheet.rows| ==>
                        var s := ParseMetadata(sheet).value;
                        FileName(s.rows[i]) in r.value
                        && (LastWriter(s.rows, FileName(s.rows[i])) == Some(i) ==> r.value[FileName(s.rows[i])] == Body(s.header, s.rows[i]))
  {
    match ParseMetadata(sheet)
    case Err(e) => Err(e)
    case Ok(s) =>
      WriteAllTable(dir, s);
      Ok(WriteAll(dir, s.header, s.rows))
  }
}

=== FILE: probability.dfy ===
/** The probability extraction of the ChatGPT converter:
    `re.search(r"Probability:\s*(([0-9]*\.?[0-9]+))", reply).group(1)`.

    The search is modelled as a left-to-right scanner. At each start position
    the pattern needs the literal marker, then `\s*`, then a number. Because no
    whitespace character can start a number, backtracking into `\s*` never
    helps, so only the maximal whitespace run matters; and the greedy,
    backtracking number sub-pattern yields the longest prefix of what follows
    that is a number. `RegexMatchesAt` states the pattern's meaning directly and
    `MatchAtSpec` connects the two. */
module Probability {
  import opened Results
  import opened Text

  const Marker := "Probability:"

  /** The language of `[0-9]*\.?[0-9]+`: digits with at most one dot, ending in
      a digit. */
  predicate IsNumber(x: string) {
    && |x| > 0
    && IsDigit(x[|x| - 1])
    && (forall i :: 0 <= i < |x| ==> IsDigit(x[i]) || x[i] == '.')
    && (forall i, j :: 0 <= i < j < |x| && x[i] == '.' ==> x[j] != '.')
  }

  /** The end of the whitespace run starting at `p` (greedy `\s*`). */
  function SkipSpace(s: string, p: nat): (q: nat)
    requires p <= |s|
    ensures p <= q <= |s| && AllSpace(s[p..q])
    ensures q == |s| || !IsSpace(s[q])
    decreases |s| - p
  {
    if p < |s| && IsSpace(s[p]) then SkipSpace(s, p + 1) else p
  }

  /** The end of the digit run starting at `p` (greedy `[0-9]*`). */
  function DigitRun(s: string, p: nat): (q: nat)
    requires p <= |s|
    ensures p <= q <= |s|
    ensures forall i :: p <= i < q ==> IsDigit(s[i])
    ensures q == |s| || !IsDigit(s[q])
    decreases |s| - p
  {
    if p < |s| && IsDigit(s[p]) then DigitRun(s, p + 1) else p
  }

  /** The number sub-pattern at `p`: digits, then a dot and more digits if a
      digit follows the dot; otherwise the digits alone, which must not be empty. */
  function NumberAt(s: string, p: nat): Option<string>
    requires p <= |s|
  {
    var q := DigitRun(s, p);
    if q + 1 < |s| && s[q] == '.' && IsDigit(s[q + 1]) then Some(s[p..DigitRun(s, q + 1)])
    else if q > p then Some(s[p..q])
    else None
  }

  /** The number sub-pattern captures the longest prefix of `s[p..]` that is a
      number, and fails exactly when no prefix is one. */
  lemma NumberAtSpec(s: string, p: nat)
    requires p <= |s|
    ensures NumberAt(s, p).Some? ==> var c := NumberAt(s, p).value;
              p + |c| <= |s| && c == s[p..p + |c|] && IsNumber(c)
              && forall k :: p + |c| < k <= |s| ==> !IsNumber(s[p..k])
    ensures NumberAt(s, p).None? <==> forall k :: p < k <= |s| ==> !IsNumber(s[p..k])
  {
    var q := DigitRun(s, p);
    if q + 1 < |s| && s[q] == '.' && IsDigit(s[q + 1]) {
      FractionLongest(s, p, q, DigitRun(s, q + 1));
    } else if q > p {
      IntegerLongest(s, p, q);
    } else {
      NoNumber(s, p);
    }
  }

  lemma FractionLongest(s: string, p: nat, q: nat, e: nat)
    requires p <= q < e <= |s|
    requires forall i :: p <= i < q ==> IsDigit(s[i])
    requires s[q] == '.' && q + 1 < e
    requires forall i :: q + 1 <= i < e ==> IsDigit(s[i])
    requires e == |s| || !IsDigit(s[e])
    ensures IsNumber(s[p..e])
    ensures forall k :: e < k <= |s| ==> !IsNumber(s[p..k])
  {
    var x := s[p..e];
    assert forall i :: 0 <= i < |x| ==> x[i] == s[p + i];
    forall k | e < k <= |s|
      ensures !IsNumber(s[p..k])
    {
      var y := s[p..k];
      assert y[q - p] == '.' && y[e - p] == s[e];
    }
  }

  lemma IntegerLongest(s: string, p: nat, q: nat)
    requires p < q <= |s|
    requires forall i :: p <= i < q ==> IsDigit(s[i])
    requires q == |s| || !IsDigit(s[q])
    requires !(q + 1 < |s| && s[q] == '.' && IsDigit(s[q + 1]))
    ensures IsNumber(s[p..q])
    ensures forall k :: q < k <= |s| ==> !IsNumber(s[p..k])
  {
    var x := s[p..q];
    assert forall i :: 0 <= i < |x| ==> x[i] == s[p + i];
    forall k | q < k <= |s|
      ensures !IsNumber(s[p..k])
    {
      var y := s[p..k];
      assert y[q - p] == s[q];
      if k > q + 1 {
        assert y[q + 1 - p] == s[q + 1];
      }
    }
  }

  lemma NoNumber(s: string, p: nat)
    requires p <= |s|
    requires p == |s| || !IsDigit(s[p])
    requires !(p + 1 < |s| && s[p] == '.' && IsDigit(s[p + 1]))
    ensures forall k :: p < k <= |s| ==> !IsNumber(s[p..k])
  {
    forall k | p < k <= |s|
      ensures !IsNumber(s[p..k])
    {
      var y := s[p..k];
      assert y[0] == s[p];
      if k > p + 1 {
        assert y[1] == s[p + 1];
      }
    }
  }

  /** The capture group of the match starting at `p`, if the pattern matches there. */
  function MatchAt(s: string, p: nat): Option<string> {
    if OccursAt(s, p, Marker) then NumberAt(s, SkipSpace(s, p + |Marker|)) else None
  }

  /** The pattern can match starting at `p`: the marker, any whitespace, then a
      number. */
  predicate RegexMatchesAt(s: string, p: nat) {
    && OccursAt(s, p, Marker)
    && exists w, k :: p + |Marker| <= w < k <= |s| && AllSpace(s[p + |Marker|..w]) && IsNumber(s[w..k])
  }

  /** A number can only start where the whitespace run ends. */
  lemma NumberAfterSpace(s: string, m: nat, w: nat, k: nat)
    requires m <= w < k <= |s| && AllSpace(s[m..w]) && IsNumber(s[w..k])
    ensures w == SkipSpace(s, m)
  {
    var q := SkipSpace(s, m);
    assert s[w..k][0] == s[w];
  }

  /** The scanner matches at `p` exactly when the pattern can, and then captures
      the longest number that follows the whitespace after the marker. */
  lemma MatchAtSpec(s: string, p: nat)
    ensures MatchAt(s, p).Some? <==> RegexMatchesAt(s, p)
    ensures MatchAt(s, p).Some? ==>
              var w := SkipSpace(s, p + |Marker|);
              var c := MatchAt(s, p).value;
              && AllSpace(s[p + |Marker|..w])
              && w + |c| <= |s| && c == s[w..w + |c|] && IsNumber(c)
              && forall k :: w + |c| < k <= |s| ==> !IsNumber(s[w..k])
  {
    if OccursAt(s, p, Marker) {
      var m := p + |Marker|;
      var q := SkipSpace(s, m);
      NumberAtSpec(s, q);
      if MatchAt(s, p).Some? {
        var c := MatchAt(s, p).value;
        assert m <= q < q + |c| <= |s| && AllSpace(s[m..q]) && IsNumber(s[q..q + |c|]);
      }
      if RegexMatchesAt(s, p) {
        var w, k :| m <= w < k <= |s| && AllSpace(s[m..w]) && IsNumber(s[w..k]);
        NumberAfterSpace(s, m, w, k);
      }
    }
  }

  /** Scans start positions `p`, `p + 1`, ... for the first match. */
  function SearchFrom(s: string, p: nat): Option<string>
    requires p <= |s|
    decreases |s| - p
  {
    if p == |s| then None
    else if MatchAt(s, p).Some? then MatchAt(s, p)
    else SearchFrom(s, p + 1)
  }

  /** The scan from `p` returns the capture of the first start position at or
      after `p` where the pattern matches, and nothing when there is none. */
  lemma SearchFromSpec(s: string, p: nat)
    requires p <= |s|
    ensures SearchFrom(s, p).Some? ==> exists q :: p <= q <= |s| && MatchAt(s, q) == SearchFrom(s, p)
                                                  && forall q' :: p <= q' < q ==> MatchAt(s, q').None?
    ensures SearchFrom(s, p).None? ==> forall q :: p <= q ==> MatchAt(s, q).None?
  {
    if SearchFrom(s, p).Some? {
      SearchFromFound(s, p);
    } else {
      SearchFromNone(s, p);
    }
  }

  lemma {:induction false} SearchFromFound(s: string, p: nat)
    requires p <= |s| && SearchFrom(s, p).Some?
    ensures exists q :: p <= q <= |s| && MatchAt(s, q) == SearchFrom(s, p)
                        && forall q' :: p <= q' < q ==> MatchAt(s, q').None?
    decreases |s| - p
  {
    if MatchAt(s, p).None? {
      SearchFromFound(s, p + 1);
      var q :| p + 1 <= q <= |s| && MatchAt(s, q) == SearchFrom(s, p + 1)
               && forall q' :: p + 1 <= q' < q ==> MatchAt(s, q').None?;
      assert MatchAt(s, q) == SearchFrom(s, p);
    } else {
      assert MatchAt(s, p) == SearchFrom(s, p);
    }
  }

  lemma {:induction false} SearchFromNone(s: string, p: nat)
    requires p <= |s| && SearchFrom(s, p).None?
    ensures forall q :: p <= q ==> MatchAt(s, q).None?
    decreases |s| - p
  {
    if p == |s| {
      forall q | p <= q
        ensures MatchAt(s, q).None?
      {
        assert !OccursAt(s, q, Marker);
      }
    } else {
      SearchFromNone(s, p + 1);
    }
  }

  /** `re.search(PROBABILITY, s).group(1)`, or `None` when nothing matches. */
  function Search(s: string): Option<string> {
    SearchFrom(s, 0)
  }

  /** The search finds a capture exactly when the pattern matches somewhere; the
      capture is a number and belongs to the leftmost match. */
  lemma SearchSpec(s: string)
    ensures Search(s).Some? <==> exists p: nat :: RegexMatchesAt(s, p)
    ensures Search(s).Some? ==> IsNumber(Search(s).value)
    ensures Search(s).Some? ==> exists p: nat :: RegexMatchesAt(s, p) && MatchAt(s, p) == Search(s)
                                            && forall p': nat :: p' < p ==> !RegexMatchesAt(s, p')
  {
    SearchFromSpec(s, 0);
    forall p: nat ensures MatchAt(s, p).Some? <==> RegexMatchesAt(s, p) {
      MatchAtSpec(s, p);
    }
    if Search(s).Some? {
      var p :| 0 <= p <= |s| && MatchAt(s, p) == Search(s);
      MatchAtSpec(s, p);
    }
  }

  lemma SearchIsNumber(s: string)
    ensures Search(s).Some? ==> IsNumber(Search(s).value)
  {
    SearchFromSpec(s, 0);
    if Search(s).Some? {
      var p :| 0 <= p <= |s| && MatchAt(s, p) == Search(s);
      MatchAtSpec(s, p);
    }
  }

  /** A reply without the marker has no probability. */
  lemma NoMarkerNoMatch(s: string)
    requires !Contains(s, Marker)
    ensures Search(s) == None
  {
    forall p: nat ensures MatchAt(s, p).None? {
      if OccursAt(s, p, Marker) {
        assert false;
      }
    }
    SearchFromSpec(s, 0);
  }

  /** A probability with a fraction is captured whole. */
  lemma ExampleFraction()
    ensures Search("Probability: 0.73") == Some("0.73")
  {
    var a := "Probability: 0.73";
    assert OccursAt(a, 0, Marker);
    assert SkipSpace(a, 13) == 13;
    assert SkipSpace(a, 12) == 13;
    assert DigitRun(a, 14) == 14;
    assert DigitRun(a, 13) == 14;
    assert DigitRun(a, 17) == 17;
    assert DigitRun(a, 16) == 17;
    assert DigitRun(a, 15) == 17;
    assert NumberAt(a, 13) == Some(a[13..17]);
    assert a[13..17] == "0.73";
    assert |Marker| == 12;
    assert MatchAt(a, 0) == Some("0.73");
  }

  /** Any whitespace, a line break included, may follow the marker, and the
      integer part may be empty. */
  lemma ExampleLeadingDot()
    ensures Search("Probability:\n.5") == Some(".5")
  {
    var b := "Probability:\n.5";
    assert OccursAt(b, 0, Marker);
    assert SkipSpace(b, 13) == 13;
    assert SkipSpace(b, 12) == 13;
    assert DigitRun(b, 13) == 13;
    assert DigitRun(b, 15) == 15;
    assert DigitRun(b, 14) == 15;
    assert NumberAt(b, 13) == Some(b[13..15]);
    assert b[13..15] == ".5";
    assert |Marker| == 12;
    assert MatchAt(b, 0) == Some(".5");
  }

  /** A dot with no digit after it is left out of the capture. */
  lemma ExampleTrailingDot()
    ensures Search("Probability: 0.") == Some("0")
  {
    var c := "Probability: 0.";
    assert OccursAt(c, 0, Marker);
    assert SkipSpace(c, 13) == 13;
    assert SkipSpace(c, 12) == 13;
    assert DigitRun(c, 14) == 14;
    assert DigitRun(c, 13) == 14;
    assert NumberAt(c, 13) == Some(c[13..14]);
    assert c[13..14] == "0";
    assert |Marker| == 12;
    assert MatchAt(c, 0) == Some("0");
  }

  /** A marker followed by no number is no match. */
  lemma ExampleNoNumber()
    ensures Search("Probability: none") == None
  {
    var d := "Probability: none";
    assert SkipSpace(d, 13) == 13;
    assert SkipSpace(d, 12) == 13;
    assert DigitRun(d, 13) == 13;
    assert MatchAt(d, 0) == None;
    forall p: nat | 0 < p
      ensures MatchAt(d, p) == None
    {
      if OccursAt(d, p, Marker) {
        assert d[p..p + 12][0] == d[p];
      }
    }
    SearchFromSpec(d, 0);
  }
}

=== FILE: results.dfy ===
/** Optional values and success/failure values, used where the scripts either
    find nothing (`re.search` returning None) or raise (a missing column, an
    unbound local). */
module Results {

  datatype Option<+T> = None | Some(value: T)

  datatype Result<+T, +E> = Ok(value: T) | Err(error: E)
}

=== FILE: text.dfy ===
/** The few Python string operations the scripts rely on: `str.isspace`,
    `str.strip`, iterating a text file line by line, and `str.replace`. */
module Text {

  /** Python's `str.isspace` table: the characters `str.strip()` removes and the
      regular-expression class `\s` matches in a `str` pattern. */
  predicate IsSpace(c: char) {
    || ('\t' <= c <= '\r')
    || ('\U{1C}' <= c <= ' ')
    || c == '\U{85}' || c == '\U{A0}' || c == '\U{1680}'
    || ('\U{2000}' <= c <= '\U{200A}')
    || c == '\U{2028}' || c == '\U{2029}' || c == '\U{202F}' || c == '\U{205F}'
    || c == '\U{3000}'
  }

  /** The regular-expression class `[0-9]`. */
  predicate IsDigit(c: char) {
    '0' <= c <= '9'
  }

  /** Characters that end a line when a file is read in universal-newlines mode. */
  predicate IsLineBreak(c: char) {
    c == '\n' || c == '\r'
  }

  predicate AllSpace(s: string) {
    forall i :: 0 <= i < |s| ==> IsSpace(s[i])
  }

  predicate NoLineBreak(s: string) {
    forall i :: 0 <= i < |s| ==> !IsLineBreak(s[i])
  }

  /** Neither end of `s` is whitespace. */
  predicate IsStripped(s: string) {
    |s| == 0 || (!IsSpace(s[0]) && !IsSpace(s[|s| - 1]))
  }

  /** `str.lstrip()` */
  function TrimStart(s: string): string {
    if |s| > 0 && IsSpace(s[0]) then TrimStart(s[1..]) else s
  }

  /** `str.rstrip()` */
  function TrimEnd(s: string): string {
    if |s| > 0 && IsSpace(s[|s| - 1]) then TrimEnd(s[..|s| - 1]) else s
  }

  /** `str.lstrip()` removes the leading whitespace and nothing else. */
  lemma {:induction false} TrimStartSpec(s: string)
    ensures |TrimStart(s)| <= |s| && TrimStart(s) == s[|s| - |TrimStart(s)|..]
    ensures AllSpace(s[..|s| - |TrimStart(s)|])
    ensures |TrimStart(s)| == 0 || !IsSpace(TrimStart(s)[0])
  {
    if |s| > 0 && IsSpace(s[0]) {
      TrimStartSpec(s[1..]);
      var n := |s| - |TrimStart(s)|;
      assert forall i :: 1 <= i < n ==> s[..n][i] == s[1..][..n - 1][i - 1];
    }
  }

  /** `str.rstrip()` removes the trailing whitespace and nothing else. */
  lemma {:induction false} TrimEndSpec(s: string)
    ensures |TrimEnd(s)| <= |s| && TrimEnd(s) == s[..|TrimEnd(s)|]
    ensures AllSpace(s[|TrimEnd(s)|..])
    ensures |TrimEnd(s)| == 0 || !IsSpace(TrimEnd(s)[|TrimEnd(s)| - 1])
  {
    if |s| > 0 && IsSpace(s[|s| - 1]) {
      var u := s[..|s| - 1];
      TrimEndSpec(u);
      var m := |TrimEnd(s)|;
      assert forall i :: m <= i < |s| - 1 ==> s[i] == u[i];
      assert s[m..] == u[m..] + [s[|s| - 1]];
    }
  }

  /** `str.strip()` */
  function Strip(s: string): string {
    TrimEnd(TrimStart(s))
  }

  /** The result of `str.strip()` is the slice of `s` left once the whitespace
      on both sides is cut off; it is empty exactly when `s` is all whitespace. */
  lemma StripSpec(s: string)
    ensures IsStripped(Strip(s))
    ensures exists a :: 0 <= a <= |s| - |Strip(s)| && Strip(s) == s[a..a + |Strip(s)|]
                         && AllSpace(s[..a]) && AllSpace(s[a + |Strip(s)|..])
    ensures |Strip(s)| == 0 <==> AllSpace(s)
  {
    var t := TrimStart(s);
    var r := TrimEnd(t);
    TrimStartSpec(s);
    TrimEndSpec(t);
    var a := |s| - |t|;
    assert r == s[a..a + |r|];
    assert s[a + |r|..] == t[|r|..];
    if |r| == 0 {
      assert s == s[..a] + t;
    } else {
      assert !IsSpace(r[0]) by { assert r[0] == t[0]; }
    }
  }

  lemma StripKeepsStripped(s: string)
    requires IsStripped(s)
    ensures Strip(s) == s
  {
    if |s| > 0 {
      assert TrimStart(s) == s;
      assert TrimEnd(s) == s;
    }
  }

  /** The lines of a text file as Python iterates them in universal-newlines
      mode, each without its terminator. A final terminator yields a last empty
      line; `"\r\n"` yields an empty line between its two characters. Both are
      harmless to callers that drop empty lines. */
  function SplitLines(s: string): (r: seq<string>)
    ensures |r| >= 1
  {
    if |s| == 0 then [""]
    else
      var rest := SplitLines(s[1..]);
      if IsLineBreak(s[0]) then [""] + rest
      else [[s[0]] + rest[0]] + rest[1..]
  }

  /** No line holds a line break. */
  lemma {:induction false} SplitLinesNoBreak(s: string)
    ensures forall k :: 0 <= k < |SplitLines(s)| ==> NoLineBreak(SplitLines(s)[k])
  {
    if |s| > 0 {
      SplitLinesNoBreak(s[1..]);
      var rest := SplitLines(s[1..]);
      if !IsLineBreak(s[0]) {
        var first := [s[0]] + rest[0];
        assert forall i :: 1 <= i < |first| ==> first[i] == rest[0][i - 1];
        assert NoLineBreak(first);
      }
    }
  }

  /** Writes `xs` one per line, `"\n"` between consecutive lines. */
  function JoinLines(xs: seq<string>): string {
    if |xs| == 0 then ""
    else if |xs| == 1 then xs[0]
    else xs[0] + "\n" + JoinLines(xs[1..])
  }

  lemma {:induction false} SplitOneLine(x: string)
    requires NoLineBreak(x)
    ensures SplitLines(x) == [x]
  {
    if |x| > 0 {
      SplitOneLine(x[1..]);
      assert [x[0]] + x[1..] == x;
    }
  }

  /** A line followed by a line break is the first line. */
  lemma {:induction false} SplitFirstLine(x: string, c: char, rest: string)
    requires NoLineBreak(x) && IsLineBreak(c)
    ensures SplitLines(x + [c] + rest) == [x] + SplitLines(rest)
  {
    var s := x + [c] + rest;
    if |x| == 0 {
      assert s[1..] == rest;
    } else {
      assert s[1..] == x[1..] + [c] + rest;
      SplitFirstLine(x[1..], c, rest);
      assert [x[0]] + x[1..] == x;
    }
  }

  /** Writing lines and reading them back gives the same lines. */
  lemma {:induction false} SplitJoinLines(xs: seq<string>)
    requires |xs| >= 1
    requires forall k :: 0 <= k < |xs| ==> NoLineBreak(xs[k])
    ensures SplitLines(JoinLines(xs)) == xs
  {
    if |xs| == 1 {
      SplitOneLine(xs[0]);
    } else {
      SplitFirstLine(xs[0], '\n', JoinLines(xs[1..]));
      SplitJoinLines(xs[1..]);
    }
  }

  /** Reading the lines of a text that uses only `"\n"` and writing them back
      gives the same text. */
  lemma {:induction false} JoinSplitLines(s: string)
    requires forall i :: 0 <= i < |s| ==> s[i] != '\r'
    ensures JoinLines(SplitLines(s)) == s
  {
    if |s| > 0 {
      var rest := SplitLines(s[1..]);
      JoinSplitLines(s[1..]);
      if IsLineBreak(s[0]) {
        assert ([""] + rest)[1..] == rest;
      } else if |rest| == 1 {
        assert [s[0]] + s[1..] == s;
      } else {
        var r := [[s[0]] + rest[0]] + rest[1..];
        assert r[1..] == rest[1..];
        assert JoinLines(rest) == rest[0] + "\n" + JoinLines(rest[1..]);
        assert [s[0]] + s[1..] == s;
      }
    }
  }

  /** `pat` starts at position `p` of `s`. */
  predicate OccursAt(s: string, p: nat, pat: string) {
    p + |pat| <= |s| && s[p..p + |pat|] == pat
  }

  predicate Contains(s: string, pat: string) {
    exists p: nat :: p <= |s| && OccursAt(s, p, pat)
  }

  lemma ContainsTail(s: string, pat: string)
    requires |s| > 0
    ensures Contains(s[1..], pat) ==> Contains(s, pat)
  {
    if Contains(s[1..], pat) {
      var p: nat :| p <= |s[1..]| && OccursAt(s[1..], p, pat);
      assert s[p + 1..p + 1 + |pat|] == s[1..][p..p + |pat|];
      assert OccursAt(s, p + 1, pat);
    }
  }

  /** `s.replace(pat, rep)`: every non-overlapping occurrence of `pat`, found
      left to right, is replaced by `rep`. */
  function ReplaceAll(s: string, pat: string, rep: string): string
    requires |pat| > 0
    decreases |s|
  {
    if |s| < |pat| then s
    else if s[..|pat|] == pat then rep + ReplaceAll(s[|pat|..], pat, rep)
    else [s[0]] + ReplaceAll(s[1..], pat, rep)
  }

  /** A text without `pat` is left as it is. */
  lemma {:induction false} ReplaceAbsent(s: string, pat: string, rep: string)
    requires |pat| > 0 && !Contains(s, pat)
    ensures ReplaceAll(s, pat, rep) == s
    decreases |s|
  {
    if |s| >= |pat| {
      assert !OccursAt(s, 0, pat);
      ContainsTail(s, pat);
      ReplaceAbsent(s[1..], pat, rep);
      assert [s[0]] + s[1..] == s;
    }
  }

  /** A label followed by a separator and then `pat` keeps the label and the
      separator and has only the trailing `pat` replaced, provided the label
      does not contain `pat` and the separator does not occur in `pat`. */
  lemma {:induction false} ReplaceSuffix(x: string, c: char, pat: string, rep: string)
    requires |pat| > 0
    requires !Contains(x, pat)
    requires forall i :: 0 <= i < |pat| ==> pat[i] != c
    ensures ReplaceAll(x + [c] + pat, pat, rep) == x + [c] + rep
    decreases |x|
  {
    var s := x + [c] + pat;
    NotAtStart(x, c, pat);
    var tail := ReplaceAll(s[1..], pat, rep);
    assert ReplaceAll(s, pat, rep) == [s[0]] + tail;
    if |x| == 0 {
      assert s[1..] == pat;
      ReplaceWhole(pat, rep);
    } else {
      assert !Contains(x[1..], pat) by { ContainsTail(x, pat); }
      assert s[1..] == x[1..] + [c] + pat;
      ReplaceSuffix(x[1..], c, pat, rep);
      assert [x[0]] + x[1..] == x;
    }
  }

  /** `pat` does not start a text that begins with a label lacking `pat`, then
      a separator that `pat` lacks. */
  lemma NotAtStart(x: string, c: char, pat: string)
    requires |pat| > 0
    requires !Contains(x, pat)
    requires forall i :: 0 <= i < |pat| ==> pat[i] != c
    ensures (x + [c] + pat)[..|pat|] != pat
  {
    var s := x + [c] + pat;
    if |x| >= |pat| {
      assert s[..|pat|] == x[0..|pat|];
      assert !OccursAt(x, 0, pat);
    } else {
      assert s[..|pat|][|x|] == c;
      assert pat[|x|] != c;
    }
  }

  lemma ReplaceWhole(pat: string, rep: string)
    requires |pat| > 0
    ensures ReplaceAll(pat, pat, rep) == rep
  {
    assert pat[..|pat|] == pat && pat[|pat|..] == [];
    assert ReplaceAll(pat, pat, rep) == rep + ReplaceAll([], pat, rep);
  }
}
